=== FILE: README.md ===
# Extract unique note: a Dafny model of the plugin's string logic

The plugin adds one editor command, "Extract unique note". It moves the
current selection into a new note named after the local time, and it puts a
wiki link to that note where the selection was. Everything the plugin
decides for itself is a pure function of strings and integers:

- the trimmed selection (`getSelection`);
- the title, which is the first line of the selection with its `[[X]]` and
  `[[P|Y]]` links unwrapped by two fixed regular expressions
  (`getTitleFromSelection`);
- whether the command is offered (the `checking` branch of the callback);
- the note id, made of the year followed by two-digit month, day, hour,
  minute and second (`toLocalTimestamp` and `pad`);
- what `extractUniqueNote` hands to the host: the file name `<id>.md`, the
  body `# [[parent]]: <selection>\n`, the `aliases` front-matter entry, the
  replacement link `[[id|title]]` or `[[id]]`, and the range of the parent
  link that is selected once the new note is open.

The model has four modules, one per concern of `main.ts`, plus a small
`Wrappers` module (wrappers.dfy) holding `Option`, which stands for
`T | undefined`.

- `Text` (text.dfy) holds the JavaScript built-ins the plugin uses: `trim`
  with the ECMAScript whitespace and line-terminator set, the first element
  of `split("\n")`, and `indexOf`.
- `Wikilink` (wikilink.dfy) writes each regular expression as an explicit
  scanner. `MatchAt` tries the expression at offset 0, backtracking
  included; `BareAt` and `LabelledAt` are its two cases. `ReplaceAll` is `replace` with the `g` flag: it replaces the
  leftmost match and resumes after it. Both scanners are proved against
  declarative readings of the expressions (`BareMatch`, `LabelledMatch`).
  For the labelled form, the greedy `[^\]]*` makes the match keep the text
  after the last `|`.
- `Timestamp` (timestamp.dfy) takes a `Date` as its six local integer
  fields, with the month from 0 to 11 as `getMonth` returns it. It proves
  that `pad` always gives the two digits of `n % 100`. It also proves that an
  id can be parsed back into the reading it came from, so distinct readings
  never share an id. Ids whose years are non-negative and have the same
  width sort as strings in chronological order; this covers every year from
  1000 to 9999.
- `Extract` (extract.dfy) composes the note. Its lemmas say the following.
  A title is never empty and holds no line feed. The command is offered
  exactly when there is a title. The replacement link points at the file
  name's stem, and it carries a label exactly when an alias is written,
  provided the title holds no `]` (see "Findings"). In the body as composed,
  the parent link is found at offset 2. `ParseWikiLink` stands for the way a
  Markdown reader takes a wiki link at the start of a text, so that these
  lemmas can say what the written link displays.

Three details of `main.ts` that are easy to misread, all modelled as written:

- The year is not padded. An id is a fixed 14 characters only when the
  year's numeral has four characters: years 1000 to 9999, or -999 to -100
  with their minus sign. `UnpaddedYearBreaksOrder` shows a year-999 reading
  sorting after a year-1000 one.
- The bare-link rewrite runs first, and the labelled rewrite runs on its
  output.
- An empty title is `undefined` (`None`), not the empty string.

## Model

| member | source | states |
|---|---|---|
| Text.Trim | main.ts:23 | the result is an infix of the input, only whitespace is cut from either end, and the result neither starts nor ends with whitespace |
| Text.TrimIdempotent | main.ts:40 | trimming the already trimmed selection again changes nothing |
| Text.TrimBlank | main.ts:23 | a whitespace-only selection trims to the empty string |
| Text.FirstLine | main.ts:28 | `split("\n")[0]` is a prefix of the input with no line feed, and it is followed by a line feed or the end of the input |
| Text.IndexOf | main.ts:72-73 | `indexOf` gives -1 exactly when the needle never occurs, and otherwise the first offset where it occurs |
| Wikilink.MatchAt | main.ts:29-30 | a match starts with `[[`, ends with `]]`, and its group is the text just before the closing `]]` |
| Wikilink.RunWithout | main.ts:29-30 | a greedy `[^...]*` stops at the first excluded character, or at the end of the text |
| Wikilink.LastIndex | main.ts:30 | backtracking stops at the last `\|` of the run: it is a `\|`, and none follows it |
| Wikilink.RunLength | main.ts:29-30 | a run of allowed characters followed by an excluded one is exactly as long as the greedy `[^...]*` goes |
| Wikilink.BareAt | main.ts:29 | a bare match is `[[`, its group, then `]]`, and consumes exactly four characters more than the group |
| Wikilink.LabelledAt | main.ts:30 | a labelled match consumes at least five characters more than its group, which sits just before the closing `]]` |
| Wikilink.BareMatchFound | main.ts:29 | any reading of a prefix as `[[X]]`, X free of `]` and `\|`, is the match the scanner reports |
| Wikilink.BareMatchAtIsRegexMatch | main.ts:29 | the scanner finds a match of `/\[\[([^\]\|]*)\]\]/` at offset 0 exactly when the expression has one, and that match is unique |
| Wikilink.LabelledMatchAtIsRegexMatch | main.ts:30 | every match the scanner reports reads the prefix as `[[P\|Y]]`, with no `]` in P or Y |
| Wikilink.LabelledMatchAtIsGreedy | main.ts:30 | every reading as `[[P\|Y]]` is found, and the reported group is no longer than any Y: the greedy prefix takes the last `\|` |
| Wikilink.LabelledMatchOfBarFree | main.ts:30 | when Y has no `\|`, a reading of a prefix as `[[P\|Y]]` is exactly the match reported, group Y |
| Wikilink.ReplaceAll | main.ts:29-30 | a global replace never lengthens the text; `CopyPlain`, `BareStep` and `LabelledStep` say what it does to text and links in turn |
| Wikilink.ReplaceAllDrawsFromInput | main.ts:29-30 | a global replace brings in no character that was not already in the text |
| Wikilink.NoMatchUnchanged | main.ts:29-30 | a scan that matches nowhere copies its input |
| Wikilink.NoOpenUnchanged | main.ts:29-30 | text with no `[[` passes through either rewrite unchanged |
| Wikilink.NoCloseUnchanged | main.ts:29-30 | text with no `]` passes through either rewrite unchanged |
| Wikilink.UnwrapLinks | main.ts:29-30 | the two rewrites in sequence never lengthen the line and bring in no new character |
| Wikilink.UnwrapNoLinks | main.ts:29-30 | a line with no `[[` is its own title |
| Wikilink.UnwrapBareLink | main.ts:29-30 | `[[X]]` becomes X when X has no `]` and no `\|` |
| Wikilink.UnwrapLabelledLink | main.ts:29-30 | `[[P\|Y]]` becomes Y when P holds no `]` and Y holds no bracket and no `\|`, even when P holds further `\|` characters |
| Wikilink.LabelledLinkHasNoBareMatch | main.ts:29 | the bare rewrite copies `[[P\|Y]]` unchanged and carries on with the text after it, when P holds no `]` and Y holds no bracket and no `\|` |
| Wikilink.LabelledLinkMatch | main.ts:30 | the labelled rewrite matches the whole of `[[P\|Y]]` with group Y when P and Y hold no `]` and Y holds no `\|` |
| Wikilink.NoBareMatchBeforeBar | main.ts:29 | the bare rewrite cannot match at a `[[` that is followed by a `\|` before any `]` |
| Wikilink.NoMatchPrefix | main.ts:29-30 | characters at none of which a match starts are copied, and the scan resumes after them |
| Wikilink.CopyUnmatched | main.ts:29-30 | the same, for a prefix read character by character: each character at which no match starts is copied, then the scan resumes after the prefix |
| Wikilink.PlainStartsNoMatch | main.ts:29-30 | both patterns start with `[`, so no match starts inside text without a `[` |
| Wikilink.CopyPlain | main.ts:29-30 | text with no `[` is copied as it stands, and the scan carries on with what follows it |
| Wikilink.BareStep | main.ts:29 | `[[X]]` followed by any text becomes X followed by the rewrite of that text, when X holds no `]` or `\|` |
| Wikilink.LabelledStep | main.ts:30 | `[[P\|Y]]` followed by any text becomes Y followed by the rewrite of that text, when P and Y hold no `]` and Y no `\|` |
| Wikilink.BarePass | main.ts:29 | on a line of bracket-free text and well-formed links, the bare rewrite unwraps each `[[X]]` and leaves text and labelled links alone |
| Wikilink.LabelledPass | main.ts:30 | after that, the labelled rewrite replaces each `[[P\|Y]]` by Y and leaves the rest alone |
| Wikilink.UnwrapLinkLine | main.ts:29-30 | such a line unwraps to its text with every link replaced by the name or label it shows |
| Wikilink.UnwrappedLineHasNoBrackets | main.ts:29-30 | such a line unwraps to text with no `[`, so no `[[`, and with no `]`, so no `]]`, when its plain text has none |
| Wikilink.UnwrapExampleTwoLinks | main.ts:29-30 | `see [[A]] and [[B\|C]]` unwraps to `see A and C` |
| Timestamp.NatToDecimal | main.ts:94 | `String(n)` is a non-empty string of digits, with no leading zero, whose last digit is `n % 10` |
| Timestamp.DecimalRoundTrip | main.ts:94 | reading the numeral back gives the number |
| Timestamp.IntRoundTrip | main.ts:94 | a signed numeral reads back as the integer it was printed from |
| Timestamp.IntToDecimal | main.ts:94 | `String(year)` starts with a minus sign exactly for a negative year, and is otherwise all digits; `IntRoundTrip` reads it back |
| Timestamp.DecimalLength | main.ts:94 | a numeral has at most k digits exactly when the number is below 10^k |
| Timestamp.DecimalOrder | main.ts:94 | numerals of equal width compare as strings the way the numbers compare, and they are equal exactly when the numbers are |
| Timestamp.LexLessConcat | main.ts:93-100 | comparing two concatenations whose first parts have the same width compares the first parts, then the second parts |
| Timestamp.Pad | main.ts:89-91 | `pad(n)` is always exactly two characters, both digits |
| Timestamp.PadDigitsOf | main.ts:89-91 | `pad(n)` is the tens digit then the units digit of `n % 100`, so larger arguments lose their leading digits |
| Timestamp.TakeLast | main.ts:90 | `slice(-k)` keeps the last k characters, or the whole of a shorter string; `slice(-0)` keeps the whole string |
| Timestamp.PadValue | main.ts:89-91 | below 100, `pad` keeps the value of its argument |
| Timestamp.PadOrder | main.ts:89-91 | below 100, padded numbers compare as strings the way the numbers compare, and they are equal exactly when the numbers are |
| Timestamp.TwoDigitOrder | main.ts:89-91 | two-digit numerals compare as strings the way their values compare |
| Timestamp.LocalTimestamp | main.ts:88-101 | the id is the year's numeral followed by exactly ten more characters |
| Timestamp.TimestampRoundTrip | main.ts:93-100 | for any valid reading, whatever the year, the id parses back to that reading |
| Timestamp.TimestampInjective | main.ts:93-100 | two valid readings have the same id exactly when they are the same reading |
| Timestamp.TimestampLength | main.ts:93-100 | the id has 14 characters exactly when the year is from 1000 to 9999 or from -999 to -100 |
| Timestamp.ClockParts | main.ts:95-99 | the ten characters after the year are digits: padded month + 1, then day, hour, minute and second |
| Timestamp.PadAllOrder | main.ts:95-99 | a run of padded fields below 100 compares as a string the way the field values compare, first field first, and two runs are equal exactly when their values are |
| Timestamp.ClockFieldsOrder | main.ts:95-99 | comparing month, day, hour, minute and second in that order is the same as comparing the clock readings in time |
| Timestamp.ClockOrder | main.ts:95-99 | the ten digits after the year order readings within one year by month, day, hour, minute, then second |
| Timestamp.FieldStep | main.ts:93-100 | one equal-width leading field decides the order, and the rest of the id decides ties |
| Timestamp.TimestampOrder | main.ts:93-100 | when the years are non-negative and equally wide, ids compare as strings exactly as the readings compare in time |
| Timestamp.TimestampOrderFourDigitYears | main.ts:93-100 | for years from 1000 to 9999, the string order of ids is chronological order |
| Timestamp.UnpaddedYearBreaksOrder | main.ts:94 | across a change in the year's width, string order disagrees with time: 999-12-31 23:59:59 sorts after 1000-01-01 00:00:00 |
| Extract.SelectionText | main.ts:22-24 | the selection is used trimmed: it is empty or starts and ends with non-whitespace, and it is never longer than the selection |
| Extract.SelectionCutsOnlyWhitespace | main.ts:23 | the trimmed selection is a slice of the selection with only whitespace cut from each end, and it is empty exactly when the selection is blank |
| Extract.TitleFromSelection | main.ts:26-32 | a title is never empty, holds no line feed, and is made only of characters from the selection |
| Extract.CommandAvailable | main.ts:13-15 | the command is offered exactly when there is a title; it is never offered for a blank selection, and when offered the trimmed selection is not empty |
| Extract.FirstLineOfSelection | main.ts:27-28 | when the first line starts with `[` and ends with `]`, trimming keeps it whole and it is the line the title comes from |
| Extract.FirstLineOfCut | main.ts:23-28 | cutting only whitespace from the ends of a selection whose first line starts with `[` and ends with `]` leaves that first line in place |
| Extract.TitleOfBareLink | main.ts:27-31 | a selection whose first line is `[[X]]`, with no `]` and no `\|` in X, is titled X, or gets no title when X is empty |
| Extract.TitleOfLabelledLink | main.ts:27-31 | a selection whose first line is `[[P\|Y]]`, with no `]` in P and no bracket and no `\|` in Y, is titled Y, or gets no title when Y is empty |
| Extract.TitleWithoutLinks | main.ts:27-31 | a first line (of the trimmed selection) with no `[[` is the title as it stands, or there is no title when that line is empty |
| Extract.TitleExampleBare | main.ts:27-31 | `[[Foo Bar]]` followed by more lines is titled `Foo Bar` |
| Extract.TitleExampleLabelled | main.ts:27-31 | `[[Foo\|Bar Baz]]` followed by more lines is titled `Bar Baz` |
| Extract.TitleExampleLastBar | main.ts:27-31 | `[[a\|b\|c]]` is titled `c` |
| Extract.ParentLink | main.ts:43 | there is a parent link exactly when the view has a file with a non-empty basename; the link is `[[`, the basename itself, then `]]: ` |
| Extract.NoteBodyStartsWithParentLink | main.ts:42-45 | with a parent, the note opens with `# [[basename]]: ` |
| Extract.NoteBody | main.ts:40-45 | the body starts with `# ` and ends with a line feed; with no parent link it is `# ` + the trimmed selection + a line feed, and otherwise the parent link comes right after `# ` |
| Extract.NoteFilename | main.ts:38 | the file name is the id followed by `.md` |
| Extract.StemOfNoteFilename | main.ts:38 | dropping `.md` from the file name gives the id back |
| Extract.AliasUpdate | main.ts:49-53 | `aliases` is set, to the one-element list of the title, exactly when there is a title, and nothing else is set |
| Extract.ReplacementLink | main.ts:56-60 | the replacement is a `[[ ]]` link at least four characters longer than the id; `ReplacementLinkBrackets` spells it out as `[[id\|title]]`, or `[[id]]` without a title |
| Extract.ReplacementLinkRoundTrip | main.ts:56-60 | for a title without `]`, the replacement reads back as one whole link whose target is the id and whose displayed text is the title, present exactly when the title is |
| Extract.ParseBracketed | main.ts:56-60 | `[[inner]]` before any text reads as the link `inner`, with that text left over, when `inner` holds no `]` |
| Extract.ParsedInnerShape | main.ts:56-60 | a link the reader accepts is `[[`, text with no `]`, `]]`, then the text left over |
| Extract.SplitLinkInverse | main.ts:56-60 | cutting a link's text at its first `\|` loses nothing, and the target holds no `\|` |
| Extract.SplitLinkOf | main.ts:57-59 | a target without `\|` and its label are cut back apart exactly |
| Extract.ParseWikiLinkInverse | main.ts:56-60 | whatever the reader accepts is a link of the form `extractUniqueNote` writes, followed by the text left over |
| Extract.ParseLeavesRest | main.ts:56-60 | a whole link read at the front of a longer text leaves that text over |
| Extract.CloseInTitleEndsLink | main.ts:57 | as written, a title `A]]B` ends the link after A: the link shows A, and B and the closing `]]` follow as plain text |
| Extract.TitleOfBracketFreeLine | main.ts:26-32 | a one-line selection with no `[` and no surrounding whitespace is its own title |
| Extract.TitleKeepsClose | main.ts:26-32 | the selection `foo]] bar` is titled `foo]] bar` |
| Extract.CloseInTitleBreaksBackLink | main.ts:56-57 | as written, the selection `foo]] bar` gets a back-link that shows only `foo`, followed by ` bar]]` as text |
| Extract.SafeReplacementLink | main.ts:56-60 | the corrected back-link is the one `main.ts` writes whenever the title holds no `]` |
| Extract.SafeReplacementLinkRoundTrip | main.ts:56-60 | the corrected back-link always reads back as one whole link to the id, showing the title whenever the title holds no `]` |
| Extract.SafeExtractUniqueNote | main.ts:34-60 | with the corrected back-link, the replacement always reads back as one link to the new file's stem, any text it shows is the alias written, and for a title without `]` the draft is the one `main.ts` composes |
| Extract.TimestampExcludes | main.ts:93-100 | an id holds only digits and perhaps a minus sign, so no `\|` or `]` occurs in one |
| Extract.YearExcludes | main.ts:94 | the year's numeral holds only digits and perhaps a minus sign |
| Extract.ExtractUniqueNote | main.ts:34-60 | the new file's stem is the id; for a title without `]`, the replacement reads back as one link to that stem, and the text it shows is present exactly when an alias is written, with the same text |
| Extract.SelectParentLink | main.ts:68-83 | with no parent link nothing happens; the lookup fails exactly when the link does not occur; otherwise the selected range is the first occurrence of the link |
| Extract.ParentLinkFoundInBody | main.ts:42-79 | in the body as composed, the parent link is first found at offset 2, right after `# ` |
| Extract.DraftParentLinkFound | main.ts:43-83 | on the composed draft, the lookup's error branch never fires |
| Extract.LinkFollowsHeading | main.ts:42-45 | the composed body is `# ` followed by the parent link |
| Extract.FirstOccurrenceAtTwo | main.ts:72 | a needle that occurs at offset 2, and whose first character differs from the first two characters of the text, is first found at offset 2 |

## Left out

- Command registration (`onload`, `addCommand`): only the availability decision is modelled.
- Host I/O: `vault.create`, `fileManager.processFrontMatter` and how the front matter is serialised. The model returns the requested `aliases` entry as a map.
- `processFrontMatter` is not awaited, so it may run before or after the later steps. That ordering is a concurrency matter and is not modelled.
- Extract.ParentLinkFoundInBody: the front matter written by the host can put text in front of the body before the lookup runs. The lemma covers only the body as composed, not the note as the host later shows it.
- Pane and editor effects: `getLeaf`, `openFile`, `setTimeout`, `setActiveLeaf`, `offsetToPos`, `setSelection` and `replaceSelection`. The model returns the replacement string and the range to select.
- `new Date()` and conversion to local time: the six local fields are inputs. Daylight-saving jumps, which can make local time run backwards, are not modelled.
- The `console.error` call: the model returns the `LinkNotFound` outcome instead.
- The general regular-expression engine: only the two fixed patterns are modelled, as scanners.
- UTF-16: JavaScript strings and offsets count UTF-16 code units, while the model counts Unicode scalar values. The two differ only for characters outside the Basic Multilingual Plane.
- Timestamp.Pad: takes only non-negative numbers, because the `Date` getters it receives never return negatives.
- Timestamp.TimestampOrder: proved only for non-negative years of equal width. `UnpaddedYearBreaksOrder` shows that the order fails across widths.
- Other revisions of the plugin use other note templates: tags, a front-matter block in the body, a section skeleton, and a references section. Those revisions are not part of this model; only the template in main.ts is modelled.
- Wikilink.UnwrappedLineHasNoBrackets: proved only for lines made of bracket-free text and well-formed links. A line whose `[[` is never closed, such as `[[a|[[b]]`, is not one of them, and it becomes `[[a|b`, which still holds `[[`.
- Extract.SelectionText: its own contract does not say that only whitespace is cut; `SelectionCutsOnlyWhitespace` states that, as a separate lemma so that the existential is not unfolded wherever the selection text is used.
- Extract.ReplacementLinkRoundTrip: holds only for titles without `]`. A title holding `]]` ends the link early; see "Findings".
- Extract.SafeExtractUniqueNote: a title holding `]`, even a lone one, loses its label, and the back-link is the bare `[[id]]`: `ParseWikiLink("[[12|a]b]]")` is `None`, because a link's text cannot hold `]` and the link syntax offers no escape for it. The `aliases` entry is still written with the whole title; only the label is dropped from the link.
- Extract.ExtractUniqueNote: the replacement reads back as a link showing the title only when the title holds no `]`; see "Findings".
- The host's full link syntax (headings after `#`, block references after `^`, embeds, escapes): `ParseWikiLink` reads only the plain `[[target]]` and `[[target|text]]` forms that `extractUniqueNote` writes.

## Findings

| source | as written | input that shows it | evidently intended | confidence | as-written member | corrected member |
|---|---|---|---|---|---|---|
| main.ts:56-57 | the title goes into `[[${timestamp}\|${title}]]` unescaped | the selection `foo]] bar`: its title is `foo]] bar`, and the link written is `[[<id>\|foo]] bar]]` | the back-link is always one whole link to the new note, and any text it shows is the alias written | medium, not executed | Extract.CloseInTitleBreaksBackLink | Extract.SafeExtractUniqueNote |

=== FILE: extract.dfy ===
/**
 The plugin's own logic in main.ts: the trimmed selection, the title derived
 from its first line, whether the "Extract unique note" command is offered,
 and the pieces `extractUniqueNote` hands to the host (file name, note body,
 the alias written to the front matter, the link that replaces the selection,
 and the range selected in the new note once it is open).
 */
module Extract {

  import opened Wrappers
  import opened Text
  import opened Wikilink
  import opened Timestamp

  // ------------------------------------------------------------- selection

  /** `getSelection`: the editor's selection, trimmed. */
  function SelectionText(selection: string): (s: string)
    ensures s == [] || (!IsWhitespace(s[0]) && !IsWhitespace(s[|s| - 1]))
    ensures |s| <= |selection|
  {
    Trim(selection)
  }

  /** The selection text is the selection with whitespace, and only
      whitespace, cut from both ends; it is empty exactly for a blank
      selection. */
  lemma SelectionCutsOnlyWhitespace(selection: string)
    ensures exists i, j :: 0 <= i <= j <= |selection| && SelectionText(selection) == selection[i..j]
                        && AllWhitespace(selection[..i]) && AllWhitespace(selection[j..])
    ensures SelectionText(selection) == [] <==> AllWhitespace(selection)
  {
    if SelectionText(selection) == [] {
      var i, j :| 0 <= i <= j <= |selection| && Trim(selection) == selection[i..j]
               && AllWhitespace(selection[..i]) && AllWhitespace(selection[j..]);
      forall k | 0 <= k < |selection| ensures IsWhitespace(selection[k]) {
        if k < i {
          assert selection[k] == selection[..i][k];
        } else {
          assert selection[k] == selection[j..][k - j];
        }
      }
    } else if AllWhitespace(selection) {
      TrimBlank(selection);
    }
  }

  /** `getTitleFromSelection`: the first line of the trimmed selection with its
      links unwrapped; `undefined` (None) when that leaves nothing. */
  function TitleFromSelection(selection: string): (t: Option<string>)
    ensures t.Some? ==> t.value != []
    ensures t.Some? ==> '\n' !in t.value
    ensures t.Some? ==> forall c :: c in t.value ==> c in selection
  {
    var line := FirstLine(SelectionText(selection));
    var title := UnwrapLinks(line);
    assert forall c :: c in line ==> c in selection by {
      forall c | c in line ensures c in selection {
        var i, j :| 0 <= i <= j <= |selection| && Trim(selection) == selection[i..j];
        assert line == Trim(selection)[..|line|];
      }
    }
    if title == [] then None else Some(title)
  }

  /** The `checking` branch of the command callback: `!!title`. */
  function CommandAvailable(selection: string): (b: bool)
    ensures b <==> TitleFromSelection(selection).Some?
    ensures b ==> SelectionText(selection) != []
    ensures AllWhitespace(selection) ==> !b
  {
    TitleFromSelection(selection).Some?
  }

  /** Trimming leaves a selection unchanged when it starts with `[` and ends
      the first line with a line feed or the end of the text; its first line
      is then the given prefix. */
  lemma FirstLineOfSelection(line: string, tail: string)
    requires line != [] && line[0] == '[' && line[|line| - 1] == ']'
    requires '\n' !in line
    requires tail == [] || tail[0] == '\n'
    ensures FirstLine(SelectionText(line + tail)) == line
  {
    var s := line + tail;
    var i, j :| 0 <= i <= j <= |s| && Trim(s) == s[i..j] && AllWhitespace(s[..i]) && AllWhitespace(s[j..]);
    FirstLineOfCut(line, tail, i, j);
  }

  /** Cutting only whitespace from both ends of such a selection keeps its
      first line whole. */
  lemma FirstLineOfCut(line: string, tail: string, i: nat, j: nat)
    requires line != [] && line[0] == '[' && line[|line| - 1] == ']'
    requires '\n' !in line
    requires tail == [] || tail[0] == '\n'
    requires i <= j <= |line + tail|
    requires AllWhitespace((line + tail)[..i]) && AllWhitespace((line + tail)[j..])
    ensures FirstLine((line + tail)[i..j]) == line
  {
    var s := line + tail;
    assert s[0] == '[' && s[|line| - 1] == ']';
    WhitespacePrefixBound(s, i);
    WhitespaceSuffixBound(s, j, |line| - 1);
    var t := s[..j];
    assert s[i..j] == t;
    assert t[..|line|] == line;
    FirstLineOfPrefix(line, t[|line|..]);
    assert t == line + t[|line|..];
  }

  /** Cutting only whitespace from the front cannot reach a `[`. */
  lemma WhitespacePrefixBound(s: string, i: nat)
    requires i <= |s| && AllWhitespace(s[..i])
    requires s != [] && s[0] == '['
    ensures i == 0
  {
  }

  /** Cutting only whitespace from the back cannot reach a character `k`
      that is not whitespace. */
  lemma WhitespaceSuffixBound(s: string, j: nat, k: nat)
    requires j <= |s| && AllWhitespace(s[j..])
    requires k < |s| && !IsWhitespace(s[k])
    ensures k < j
  {
  }

  lemma {:induction false} FirstLineOfPrefix(line: string, rest: string)
    requires '\n' !in line
    requires rest == [] || rest[0] == '\n'
    ensures FirstLine(line + rest) == line
    decreases |line|
  {
    if line == [] {
      assert line + rest == rest;
    } else {
      assert (line + rest)[1..] == line[1..] + rest;
      FirstLineOfPrefix(line[1..], rest);
      assert line == [line[0]] + line[1..];
    }
  }

  /** A selection whose first line is `[[X]]` is titled `X`. */
  lemma TitleOfBareLink(x: string, tail: string)
    requires Excludes(x, ']') && Excludes(x, '|') && '\n' !in x
    requires tail == [] || tail[0] == '\n'
    ensures TitleFromSelection("[[" + x + "]]" + tail) == if x == [] then None else Some(x)
  {
    FirstLineOfSelection("[[" + x + "]]", tail);
    UnwrapBareLink(x);
  }

  /** A selection whose first line is `[[P|Y]]` is titled `Y`, the text after
      the last `|`. */
  lemma TitleOfLabelledLink(p: string, y: string, tail: string)
    requires Excludes(p, ']') && '\n' !in p
    requires Excludes(y, ']') && Excludes(y, '[') && Excludes(y, '|') && '\n' !in y
    requires tail == [] || tail[0] == '\n'
    ensures TitleFromSelection("[[" + p + "|" + y + "]]" + tail) == if y == [] then None else Some(y)
  {
    FirstLineOfSelection("[[" + p + "|" + y + "]]", tail);
    UnwrapLabelledLink(p, y);
  }

  /** A first line without `[[` is the title as it stands. */
  lemma TitleWithoutLinks(selection: string)
    requires !HasOpen(FirstLine(SelectionText(selection)))
    ensures var line := FirstLine(SelectionText(selection));
            TitleFromSelection(selection) == if line == [] then None else Some(line)
  {
    UnwrapNoLinks(FirstLine(SelectionText(selection)));
  }

  /** `[[Foo Bar]]` on the first line gives the title `Foo Bar`. */
  lemma TitleExampleBare()
    ensures TitleFromSelection("[[Foo Bar]]\nrest") == Some("Foo Bar")
  {
    assert "[[" + "Foo Bar" + "]]" + "\nrest" == "[[Foo Bar]]\nrest";
    TitleOfBareLink("Foo Bar", "\nrest");
  }

  /** `[[Foo|Bar Baz]]` on the first line gives the title `Bar Baz`. */
  lemma TitleExampleLabelled()
    ensures TitleFromSelection("[[Foo|Bar Baz]]\nrest") == Some("Bar Baz")
  {
    assert "[[" + "Foo" + "|" + "Bar Baz" + "]]" + "\nrest" == "[[Foo|Bar Baz]]\nrest";
    TitleOfLabelledLink("Foo", "Bar Baz", "\nrest");
  }

  /** `[[a|b|c]]` gives `c`: the greedy prefix takes the last `|`. */
  lemma TitleExampleLastBar()
    ensures TitleFromSelection("[[a|b|c]]") == Some("c")
  {
    assert "[[" + "a|b" + "|" + "c" + "]]" + "" == "[[a|b|c]]";
    TitleOfLabelledLink("a|b", "c", "");
  }

  // ------------------------------------------------------------------ note

  /** `linkToParent`: `[[basename]]: ` when the view has a file whose
      basename is not empty, otherwise `undefined`. */
  function ParentLink(basename: Option<string>): (l: Option<string>)
    ensures l.Some? <==> basename.Some? && basename.value != []
    ensures l.Some? ==> |l.value| == |basename.value| + 6
    ensures l.Some? ==> && l.value[..2] == "[["
                        && l.value[2..|l.value| - 4] == basename.value
                        && l.value[|l.value| - 4..] == "]]: "
  {
    if basename.Some? && basename.value != [] then Some("[[" + basename.value + "]]: ") else None
  }

  /** `contents`: `# `, the parent link if any, the selection trimmed (a
      second time) and a line feed. */
  function NoteBody(selection: string, basename: Option<string>): (body: string)
    ensures |body| >= 3 && body[..2] == "# " && body[|body| - 1] == '\n'
    ensures ParentLink(basename).None? ==> body == "# " + SelectionText(selection) + "\n"
    ensures ParentLink(basename).Some? ==>
              body == "# " + ParentLink(basename).value + SelectionText(selection) + "\n"
  {
    var noteBody := Trim(SelectionText(selection));
    TrimIdempotent(selection);
    var heading := "# ";
    var contents := if ParentLink(basename).Some? then heading + ParentLink(basename).value else heading;
    contents + noteBody + "\n"
  }

  /** With a parent, the note opens with `# [[basename]]: `. */
  lemma NoteBodyStartsWithParentLink(selection: string, basename: string)
    requires basename != []
    ensures NoteBody(selection, Some(basename))[..|basename| + 8] == "# [[" + basename + "]]: "
  {
    var link := "[[" + basename + "]]: ";
    var opening := "# " + link;
    assert opening == "# [[" + basename + "]]: ";
    var text := SelectionText(selection);
    assert ParentLink(Some(basename)).value == link;
    assert NoteBody(selection, Some(basename)) == "# " + link + text + "\n";
    Regroup("# ", link, text, "\n");
    PrefixOfConcat(opening, text + "\n");
  }

  lemma Regroup(a: string, b: string, c: string, d: string)
    ensures a + b + c + d == (a + b) + (c + d)
  {
  }

  lemma PrefixOfConcat(a: string, b: string)
    ensures (a + b)[..|a|] == a
  {
  }

  /** `filename`: the id with the `.md` extension. */
  function NoteFilename(timestamp: string): (f: string)
    ensures |f| == |timestamp| + 3 && f[|f| - 3..] == ".md"
  {
    timestamp + ".md"
  }

  /** The name of a note as links refer to it: the file name without `.md`. */
  function FileStem(filename: string): string {
    if |filename| >= 3 && filename[|filename| - 3..] == ".md" then filename[..|filename| - 3] else filename
  }

  lemma StemOfNoteFilename(timestamp: string)
    ensures FileStem(NoteFilename(timestamp)) == timestamp
  {
    assert NoteFilename(timestamp)[..|timestamp|] == timestamp;
  }

  /** The front-matter change requested of the host: `aliases = [title]`
      when there is a title, nothing otherwise. */
  function AliasUpdate(title: Option<string>): (fm: map<string, seq<string>>)
    ensures "aliases" in fm <==> title.Some?
    ensures title.Some? ==> fm["aliases"] == [title.value]
    ensures fm.Keys <= {"aliases"}
  {
    if title.Some? then map["aliases" := [title.value]] else map[]
  }

  /** The link that replaces the selection: `[[ts|title]]`, or `[[ts]]`. */
  function ReplacementLink(timestamp: string, title: Option<string>): (link: string)
    ensures |link| >= |timestamp| + 4
    ensures link[..2] == "[[" && link[|link| - 2..] == "]]"
  {
    if title.Some? then "[[" + timestamp + "|" + title.value + "]]" else "[[" + timestamp + "]]"
  }

  /** A wiki link as it is read back: the target, and the text it displays
      when there is a `|`. */
  datatype WikiLinkParts = WikiLinkParts(target: string, display: Option<string>)

  /** What a link holds between its brackets: the target, then `|` and the
      displayed text when there is one. */
  function LinkInner(parts: WikiLinkParts): string {
    if parts.display.Some? then parts.target + "|" + parts.display.value else parts.target
  }

  lemma ReplacementLinkBrackets(timestamp: string, title: Option<string>)
    ensures ReplacementLink(timestamp, title) == "[[" + LinkInner(WikiLinkParts(timestamp, title)) + "]]"
  {
  }

  /** The text between a link's brackets, cut at its first `|`. */
  function SplitLink(inner: string): WikiLinkParts {
    var k := RunWithout(inner, {'|'});
    if k == |inner| then WikiLinkParts(inner, None) else WikiLinkParts(inner[..k], Some(inner[k + 1..]))
  }

  /** The link at the start of `s` as a Markdown reader takes it: `[[`, then
      everything up to the first `]`, which must open `]]`; the target runs
      to the first `|` and the rest is displayed. Also returns the text that
      follows the link. */
  function ParseWikiLink(s: string): Option<(WikiLinkParts, string)> {
    if |s| < 2 || s[..2] != "[[" then None
    else
      var n := RunWithout(s[2..], {']'});
      if 4 + n > |s| || s[2 + n..4 + n] != "]]" then None
      else Some((SplitLink(s[2..2 + n]), s[4 + n..]))
  }

  /** `[[inner]]` followed by anything reads as the link `inner` when
      `inner` holds no `]`. */
  lemma ParseBracketed(inner: string, rest: string)
    requires Excludes(inner, ']')
    ensures ParseWikiLink("[[" + inner + "]]" + rest) == Some((SplitLink(inner), rest))
  {
    var s := "[[" + inner + "]]" + rest;
    var n := |inner|;
    forall i | 0 <= i < n ensures s[2..][i] !in {']'} {
      assert s[2..][i] == inner[i];
    }
    assert s[2..][n] == ']';
    RunLength(s[2..], {']'}, n);
    assert s[..2] == "[[" && s[2 + n..4 + n] == "]]";
    assert s[2..2 + n] == inner && s[4 + n..] == rest;
  }

  /** The text between the brackets of a link the reader accepted. */
  function ParsedInner(s: string): string
    requires ParseWikiLink(s).Some?
  {
    s[2..2 + RunWithout(s[2..], {']'})]
  }

  lemma ParsedInnerShape(s: string)
    requires ParseWikiLink(s).Some?
    ensures Excludes(ParsedInner(s), ']')
    ensures s == "[[" + ParsedInner(s) + "]]" + ParseWikiLink(s).value.1
    ensures ParseWikiLink(s).value.0 == SplitLink(ParsedInner(s))
  {
    var n := RunWithout(s[2..], {']'});
    var inner := s[2..2 + n];
    forall i | 0 <= i < n ensures inner[i] != ']' {
      assert inner[i] == s[2..][i];
    }
    assert s == s[..2] + inner + s[2 + n..4 + n] + s[4 + n..];
  }

  /** Cutting at the first `|` loses nothing: the target holds no `|`, and
      neither part holds a `]` when the whole did not. */
  lemma SplitLinkInverse(inner: string)
    requires Excludes(inner, ']')
    ensures LinkInner(SplitLink(inner)) == inner
    ensures Excludes(SplitLink(inner).target, ']') && Excludes(SplitLink(inner).target, '|')
    ensures Labelable(SplitLink(inner).display)
  {
    var k := RunWithout(inner, {'|'});
    if k < |inner| {
      var target, display := inner[..k], inner[k + 1..];
      assert inner == target + "|" + display;
      forall i | 0 <= i < |display| ensures display[i] != ']' {
        assert display[i] == inner[k + 1 + i];
      }
    }
  }

  /** A target without `|` is cut back off exactly. */
  lemma SplitLinkOf(target: string, display: Option<string>)
    requires Excludes(target, '|')
    ensures SplitLink(LinkInner(WikiLinkParts(target, display))) == WikiLinkParts(target, display)
  {
    var inner := LinkInner(WikiLinkParts(target, display));
    if display.Some? {
      assert inner[|target|] == '|';
      forall i | 0 <= i < |target| ensures inner[i] !in {'|'} {
        assert inner[i] == target[i];
      }
      RunLength(inner, {'|'}, |target|);
      assert inner[..|target|] == target && inner[|target| + 1..] == display.value;
    } else {
      assert RunWithout(inner, {'|'}) == |inner|;
    }
  }

  /** Whatever the reader accepts is a link as `extractUniqueNote` writes
      one, with no `]` inside and no `|` in the target, followed by the
      text it returns. */
  lemma ParseWikiLinkInverse(s: string)
    requires ParseWikiLink(s).Some?
    ensures var (parts, rest) := ParseWikiLink(s).value;
            && s == ReplacementLink(parts.target, parts.display) + rest
            && Excludes(parts.target, ']') && Excludes(parts.target, '|')
            && Labelable(parts.display)
  {
    var parts := ParseWikiLink(s).value.0;
    ParsedInnerShape(s);
    SplitLinkInverse(ParsedInner(s));
    ReplacementLinkBrackets(parts.target, parts.display);
  }

  /** A title can be shown as a link's text only when it holds no `]`. */
  predicate Labelable(title: Option<string>) {
    title.None? || Excludes(title.value, ']')
  }

  /** The replacement reads back as one link to `timestamp`, labelled with
      the title exactly when there is one, provided the title holds no `]`. */
  lemma ReplacementLinkRoundTrip(timestamp: string, title: Option<string>)
    requires Excludes(timestamp, '|') && Excludes(timestamp, ']')
    requires Labelable(title)
    ensures ParseWikiLink(ReplacementLink(timestamp, title)) == Some((WikiLinkParts(timestamp, title), []))
  {
    var inner := LinkInner(WikiLinkParts(timestamp, title));
    assert Excludes(inner, ']') by {
      if title.Some? {
        assert Excludes("|", ']');
        ExcludesConcat(timestamp, "|", ']');
        ExcludesConcat(timestamp + "|", title.value, ']');
      }
    }
    ReplacementLinkBrackets(timestamp, title);
    ParseBracketed(inner, []);
    assert "[[" + inner + "]]" + [] == "[[" + inner + "]]";
    SplitLinkOf(timestamp, title);
  }

  /** As written, a title holding `]]` ends the link early: the link shows
      only the title's text before the first `]]`, and the rest of the title
      and the closing `]]` follow the link as plain text. */
  lemma CloseInTitleEndsLink(timestamp: string, a: string, b: string)
    requires Excludes(timestamp, '|') && Excludes(timestamp, ']') && Excludes(a, ']')
    ensures ParseWikiLink(ReplacementLink(timestamp, Some(a + "]]" + b)))
              == Some((WikiLinkParts(timestamp, Some(a)), b + "]]"))
  {
    var s := ReplacementLink(timestamp, Some(a + "]]" + b));
    assert s == ReplacementLink(timestamp, Some(a)) + (b + "]]");
    ReplacementLinkRoundTrip(timestamp, Some(a));
    ParseLeavesRest(ReplacementLink(timestamp, Some(a)), b + "]]");
  }

  /** A link read from the front of a longer text leaves that text over. */
  lemma ParseLeavesRest(s: string, rest: string)
    requires ParseWikiLink(s).Some? && ParseWikiLink(s).value.1 == []
    ensures ParseWikiLink(s + rest) == Some((ParseWikiLink(s).value.0, rest))
  {
    var inner := ParsedInner(s);
    ParsedInnerShape(s);
    assert s == "[[" + inner + "]]";
    ParseBracketed(inner, rest);
  }

  /** The selection `foo]] bar` is its own title: it has no `[[`. */
  lemma TitleKeepsClose()
    ensures TitleFromSelection("foo]] bar") == Some("foo]] bar")
  {
    var sel := "foo]] bar";
    assert sel[0] == 'f' && sel[|sel| - 1] == 'r';
    assert Excludes(sel, '[') && '\n' !in sel;
    TitleOfBracketFreeLine(sel);
  }

  /** A one-line selection with no `[` and no whitespace at its ends is its
      own title. */
  lemma TitleOfBracketFreeLine(line: string)
    requires line != [] && !IsWhitespace(line[0]) && !IsWhitespace(line[|line| - 1])
    requires Excludes(line, '[') && '\n' !in line
    ensures TitleFromSelection(line) == Some(line)
  {
    TrimUnchanged(line);
    FirstLineOfPrefix(line, []);
    assert line + [] == line;
    assert !HasOpen(line);
    TitleWithoutLinks(line);
  }

  /** As written, the selection `foo]] bar` gets a back-link that shows
      only `foo`, followed by the text ` bar]]`. */
  lemma CloseInTitleBreaksBackLink(now: DateFields)
    ensures var ts := LocalTimestamp(now);
            ParseWikiLink(ExtractUniqueNote("foo]] bar", None, now).replacement)
              == Some((WikiLinkParts(ts, Some("foo")), " bar]]"))
  {
    assert "foo" + "]]" + " bar" == "foo]] bar";
    assert " bar" + "]]" == " bar]]";
    assert Excludes("foo", ']');
    var ts := LocalTimestamp(now);
    TitleKeepsClose();
    DraftReplacement("foo]] bar", None, now);
    TimestampExcludes(now, '|');
    TimestampExcludes(now, ']');
    CloseInTitleEndsLink(ts, "foo", " bar");
  }

  /** The draft's replacement is the back-link to the new id. */
  lemma DraftReplacement(selection: string, basename: Option<string>, now: DateFields)
    ensures ExtractUniqueNote(selection, basename, now).replacement
              == ReplacementLink(LocalTimestamp(now), TitleFromSelection(selection))
  {
  }

  /** The back-link with the evident intent kept: the title is the link's
      text when it can be, and otherwise the link goes without a label. */
  function SafeReplacementLink(timestamp: string, title: Option<string>): (link: string)
    ensures Labelable(title) ==> link == ReplacementLink(timestamp, title)
  {
    if Labelable(title) then ReplacementLink(timestamp, title) else ReplacementLink(timestamp, None)
  }

  /** The corrected back-link always reads back as exactly one link to the
      new note, labelled with the title whenever the title holds no `]`. */
  lemma SafeReplacementLinkRoundTrip(timestamp: string, title: Option<string>)
    requires Excludes(timestamp, '|') && Excludes(timestamp, ']')
    ensures ParseWikiLink(SafeReplacementLink(timestamp, title))
              == Some((WikiLinkParts(timestamp, if Labelable(title) then title else None), []))
  {
    if Labelable(title) {
      ReplacementLinkRoundTrip(timestamp, title);
    } else {
      ReplacementLinkRoundTrip(timestamp, None);
    }
  }

  /** Ids are made of digits and perhaps a minus sign, so no other
      character occurs in one. */
  lemma TimestampExcludes(d: DateFields, c: char)
    requires !IsDigit(c) && c != '-'
    ensures Excludes(LocalTimestamp(d), c)
  {
    var year, clock := IntToDecimal(d.year), Clock(d);
    assert Excludes(clock, c) by {
      ClockParts(d);
      DigitsExclude(clock, c);
    }
    YearExcludes(d.year, c);
    ExcludesConcat(year, clock, c);
  }

  lemma YearExcludes(year: int, c: char)
    requires !IsDigit(c) && c != '-'
    ensures Excludes(IntToDecimal(year), c)
  {
    var s := IntToDecimal(year);
    if year < 0 {
      DigitsExclude(s[1..], c);
      forall i | 1 <= i < |s| ensures s[i] != c {
        assert s[i] == s[1..][i - 1];
      }
    } else {
      DigitsExclude(s, c);
    }
  }

  lemma DigitsExclude(s: string, c: char)
    requires AllDigits(s) && !IsDigit(c)
    ensures Excludes(s, c)
  {
  }

  // ---------------------------------------------------------------- draft

  /** Everything `extractUniqueNote` computes before it calls the host. */
  datatype NoteDraft = NoteDraft(
    filename: string,
    body: string,
    frontMatter: map<string, seq<string>>,
    replacement: string,
    parentLink: Option<string>)

  /** `extractUniqueNote` with the clock reading `now`, the selection and
      the basename of the note it was made in, if any. */
  function ExtractUniqueNote(selection: string, basename: Option<string>, now: DateFields): (d: NoteDraft)
    ensures FileStem(d.filename) == LocalTimestamp(now)
    ensures Labelable(TitleFromSelection(selection)) ==>
              ParseWikiLink(d.replacement)
                == Some((WikiLinkParts(FileStem(d.filename), TitleFromSelection(selection)), []))
    ensures "aliases" in d.frontMatter <==> TitleFromSelection(selection).Some?
    ensures "aliases" in d.frontMatter && Labelable(TitleFromSelection(selection)) ==>
              d.frontMatter["aliases"] == [ParseWikiLink(d.replacement).value.0.display.value]
  {
    var timestamp := LocalTimestamp(now);
    var filename := NoteFilename(timestamp);
    var title := TitleFromSelection(selection);
    StemOfNoteFilename(timestamp);
    TimestampExcludes(now, '|');
    TimestampExcludes(now, ']');
    assert Labelable(title) ==>
             ParseWikiLink(ReplacementLink(timestamp, title)) == Some((WikiLinkParts(timestamp, title), [])) by {
      if Labelable(title) {
        ReplacementLinkRoundTrip(timestamp, title);
      }
    }
    NoteDraft(filename, NoteBody(selection, basename), AliasUpdate(title),
              ReplacementLink(timestamp, title), ParentLink(basename))
  }

  /** `extractUniqueNote` with the back-link written by `SafeReplacementLink`:
      the replacement always reads back as one link to the new note, any
      text it shows is the alias written, and nothing changes for a title
      without `]`. */
  function SafeExtractUniqueNote(selection: string, basename: Option<string>, now: DateFields): (d: NoteDraft)
    ensures ParseWikiLink(d.replacement).Some? && ParseWikiLink(d.replacement).value.1 == []
    ensures ParseWikiLink(d.replacement).value.0.target == FileStem(d.filename)
    ensures var shown := ParseWikiLink(d.replacement).value.0.display;
            shown.Some? ==> "aliases" in d.frontMatter && d.frontMatter["aliases"] == [shown.value]
    ensures Labelable(TitleFromSelection(selection)) ==> d == ExtractUniqueNote(selection, basename, now)
  {
    var timestamp := LocalTimestamp(now);
    var title := TitleFromSelection(selection);
    TimestampExcludes(now, '|');
    TimestampExcludes(now, ']');
    SafeReplacementLinkRoundTrip(timestamp, title);
    StemOfNoteFilename(timestamp);
    ExtractUniqueNote(selection, basename, now).(replacement := SafeReplacementLink(timestamp, title))
  }

  // ------------------------------------------------------- after opening

  /** What the delayed callback does once the new note is open: nothing
      without a parent link, log and stop when the link is not in the note,
      otherwise select the link's first occurrence. */
  datatype ParentSelection = NoParentLink | LinkNotFound | SelectRange(start: nat, end: nat)

  function SelectParentLink(content: string, parentLink: Option<string>): (r: ParentSelection)
    ensures r.NoParentLink? <==> parentLink.None?
    ensures r.LinkNotFound? <==> parentLink.Some? && forall i :: !OccursAt(content, parentLink.value, i)
    ensures r.SelectRange? ==>
              && r.end == r.start + |parentLink.value| <= |content|
              && content[r.start..r.end] == parentLink.value
              && forall i :: 0 <= i < r.start ==> !OccursAt(content, parentLink.value, i)
  {
    match parentLink
    case None => NoParentLink
    case Some(link) =>
      var index := IndexOf(content, link);
      if index == -1 then LinkNotFound else SelectRange(index, index + |link|)
  }

  /** In the body as composed, the parent link is found right after `# `,
      so the lookup cannot fail there. */
  lemma ParentLinkFoundInBody(selection: string, basename: Option<string>)
    requires ParentLink(basename).Some?
    ensures var link := ParentLink(basename).value;
            SelectParentLink(NoteBody(selection, basename), ParentLink(basename)) == SelectRange(2, 2 + |link|)
  {
    var link := ParentLink(basename).value;
    var body := NoteBody(selection, basename);
    LinkFollowsHeading(selection, basename);
    FirstOccurrenceAtTwo(body, link);
  }

  /** For the draft as `extractUniqueNote` composes it, the error branch of
      the lookup cannot fire: with a parent link, it is selected at offset 2. */
  lemma DraftParentLinkFound(selection: string, basename: Option<string>, now: DateFields)
    ensures var d := ExtractUniqueNote(selection, basename, now);
            && (d.parentLink.Some? <==> basename.Some? && basename.value != [])
            && !SelectParentLink(d.body, d.parentLink).LinkNotFound?
            && (d.parentLink.Some? ==>
                  SelectParentLink(d.body, d.parentLink) == SelectRange(2, 2 + |d.parentLink.value|))
  {
    if ParentLink(basename).Some? {
      ParentLinkFoundInBody(selection, basename);
    }
  }

  lemma LinkFollowsHeading(selection: string, basename: Option<string>)
    requires ParentLink(basename).Some?
    ensures var link := ParentLink(basename).value;
            var body := NoteBody(selection, basename);
            && OccursAt(body, link, 2)
            && body[0] == '#' && body[1] == ' ' && link[0] == '['
  {
    var link := ParentLink(basename).value;
    var body := NoteBody(selection, basename);
    InfixOccurs("# ", link, SelectionText(selection), "\n");
    assert body[..2][0] == body[0] && body[..2][1] == body[1];
    assert link[..2][0] == link[0];
  }

  /** A needle that starts differently from the first two characters of the
      haystack and occurs at offset 2 is first found there. */
  lemma FirstOccurrenceAtTwo(haystack: string, needle: string)
    requires OccursAt(haystack, needle, 2)
    requires needle != [] && haystack[0] != needle[0] && haystack[1] != needle[0]
    ensures IndexOf(haystack, needle) == 2
  {
    FirstCharDiffers(haystack, needle, 0);
    FirstCharDiffers(haystack, needle, 1);
  }

  lemma FirstCharDiffers(haystack: string, needle: string, i: nat)
    requires needle != [] && i < |haystack| && haystack[i] != needle[0]
    ensures !OccursAt(haystack, needle, i)
  {
  }
}

=== FILE: text.dfy ===
/**
 The few JavaScript string built-ins the plugin relies on: `trim`, the first
 element of `split("\n")`, and `indexOf`. Strings are sequences of Unicode
 scalar values; offsets count characters.
 */
module Text {

  /** ECMAScript WhiteSpace and LineTerminator code points: what `trim` removes. */
  predicate IsWhitespace(c: char) {
    c in {
      '\t', '\n', '\U{000B}', '\U{000C}', '\r', ' ', '\U{00A0}', '\U{1680}',
      '\U{2000}', '\U{2001}', '\U{2002}', '\U{2003}', '\U{2004}', '\U{2005}',
      '\U{2006}', '\U{2007}', '\U{2008}', '\U{2009}', '\U{200A}',
      '\U{2028}', '\U{2029}', '\U{202F}', '\U{205F}', '\U{3000}', '\U{FEFF}'
    }
  }

  predicate AllWhitespace(s: string) {
    forall i :: 0 <= i < |s| ==> IsWhitespace(s[i])
  }

  /** `s` with its leading whitespace removed. */
  function TrimStart(s: string): (r: string)
    ensures |r| <= |s| && r == s[|s| - |r|..]
    ensures AllWhitespace(s[..|s| - |r|])
    ensures r != [] ==> !IsWhitespace(r[0])
  {
    if s != [] && IsWhitespace(s[0]) then TrimStart(s[1..]) else s
  }

  /** `s` with its trailing whitespace removed. */
  function TrimEnd(s: string): (r: string)
    ensures |r| <= |s| && r == s[..|r|]
    ensures AllWhitespace(s[|r|..])
    ensures r != [] ==> !IsWhitespace(r[|r| - 1])
  {
    if s != [] && IsWhitespace(s[|s| - 1]) then TrimEnd(s[..|s| - 1]) else s
  }

  /** String.prototype.trim: the longest infix of `s` that neither starts nor
      ends with whitespace, once only whitespace has been cut from both ends. */
  function Trim(s: string): (r: string)
    ensures exists i, j :: 0 <= i <= j <= |s| && r == s[i..j]
                        && AllWhitespace(s[..i]) && AllWhitespace(s[j..])
    ensures r != [] ==> !IsWhitespace(r[0]) && !IsWhitespace(r[|r| - 1])
  {
    var a := TrimStart(s);
    var r := TrimEnd(a);
    var i := |s| - |a|;
    assert r == s[i..i + |r|];
    assert s[i + |r|..] == a[|r|..];
    r
  }

  /** Trimming a string that already starts and ends with non-whitespace
      changes nothing. */
  lemma TrimUnchanged(s: string)
    requires s != [] ==> !IsWhitespace(s[0]) && !IsWhitespace(s[|s| - 1])
    ensures Trim(s) == s
  {
  }

  /** Trimming twice is trimming once. */
  lemma TrimIdempotent(s: string)
    ensures Trim(Trim(s)) == Trim(s)
  {
    TrimUnchanged(Trim(s));
  }

  /** A selection made only of whitespace trims to the empty string. */
  lemma TrimBlank(s: string)
    requires AllWhitespace(s)
    ensures Trim(s) == []
  {
  }

  /** The first element of `s.split("\n")`: everything before the first
      line feed, or all of `s` when there is none. */
  function FirstLine(s: string): (r: string)
    ensures |r| <= |s| && r == s[..|r|]
    ensures '\n' !in r
    ensures |r| < |s| ==> s[|r|] == '\n'
  {
    if s == [] || s[0] == '\n' then [] else [s[0]] + FirstLine(s[1..])
  }

  /** `needle` occurs in `haystack` starting at offset `i`. */
  predicate OccursAt(haystack: string, needle: string, i: int) {
    0 <= i && i + |needle| <= |haystack| && haystack[i..i + |needle|] == needle
  }

  /** The second of four concatenated pieces occurs right after the first. */
  lemma InfixOccurs(a: string, b: string, c: string, d: string)
    ensures OccursAt(a + b + c + d, b, |a|)
  {
    assert (a + b + c + d)[|a|..|a| + |b|] == b;
  }

  /** String.prototype.indexOf searching from offset `from`: the first offset
      at or after `from` where `needle` occurs, or -1. */
  function IndexOfFrom(haystack: string, needle: string, from: nat): (r: int)
    requires from <= |haystack|
    ensures r == -1 || (from <= r && OccursAt(haystack, needle, r))
    ensures r == -1 ==> forall i :: from <= i ==> !OccursAt(haystack, needle, i)
    ensures r != -1 ==> forall i :: from <= i < r ==> !OccursAt(haystack, needle, i)
    decreases |haystack| - from
  {
    if OccursAt(haystack, needle, from) then from
    else if from == |haystack| then -1
    else IndexOfFrom(haystack, needle, from + 1)
  }

  /** String.prototype.indexOf with no start offset. */
  function IndexOf(haystack: string, needle: string): (r: int)
    ensures r == -1 <==> forall i :: !OccursAt(haystack, needle, i)
    ensures r != -1 ==> OccursAt(haystack, needle, r)
                        && forall i :: 0 <= i < r ==> !OccursAt(haystack, needle, i)
  {
    IndexOfFrom(haystack, needle, 0)
  }
}

=== FILE: timestamp.dfy ===
/**
 `toLocalTimestamp`: the note id built from a local date-time as the year in
 decimal (not padded) followed by month, day, hour, minute and second, each
 cut to two digits by `pad`. The date-time is taken as the integer fields a
 JavaScript `Date` reports in local time.
 */
module Timestamp {

  import opened Wrappers

  /** What `getFullYear`, `getMonth` (0 for January), `getDate`, `getHours`,
      `getMinutes` and `getSeconds` return. */
  datatype DateFields = DateFields(year: int, month: nat, day: nat, hour: nat, minute: nat, second: nat)

  /** The ranges a `Date`'s local fields take. */
  predicate Valid(d: DateFields) {
    d.month < 12 && 1 <= d.day <= 31 && d.hour < 24 && d.minute < 60 && d.second < 60
  }

  /** Chronological order of two readings at one-second resolution: the
      lexicographic order of (year, month, day, hour, minute, second). */
  predicate Before(a: DateFields, b: DateFields) {
    || a.year < b.year
    || (a.year == b.year && a.month < b.month)
    || (a.year == b.year && a.month == b.month && a.day < b.day)
    || (a.year == b.year && a.month == b.month && a.day == b.day && a.hour < b.hour)
    || (a.year == b.year && a.month == b.month && a.day == b.day && a.hour == b.hour
        && a.minute < b.minute)
    || (a.year == b.year && a.month == b.month && a.day == b.day && a.hour == b.hour
        && a.minute == b.minute && a.second < b.second)
  }

  // ---------------------------------------------------------------- decimal

  predicate IsDigit(c: char) {
    '0' <= c <= '9'
  }

  predicate AllDigits(s: string) {
    forall i :: 0 <= i < |s| ==> IsDigit(s[i])
  }

  function Digit(d: nat): (c: char)
    requires d < 10
    ensures IsDigit(c) && c as int - '0' as int == d
  {
    ('0' as int + d) as char
  }

  function DigitValue(c: char): (d: nat)
    requires IsDigit(c)
    ensures d < 10 && Digit(d) == c
  {
    c as int - '0' as int
  }

  /** `String(n)` for a non-negative integer: its shortest decimal numeral. */
  function NatToDecimal(n: nat): (s: string)
    ensures s != [] && AllDigits(s)
    ensures |s| > 1 ==> s[0] != '0'
    ensures s[|s| - 1] == Digit(n % 10)
  {
    if n < 10 then [Digit(n)] else NatToDecimal(n / 10) + [Digit(n % 10)]
  }

  /** The number a string of decimal digits denotes. */
  function DecimalValue(s: string): nat
    requires AllDigits(s)
  {
    if s == [] then 0 else DecimalValue(s[..|s| - 1]) * 10 + DigitValue(s[|s| - 1])
  }

  /** `String(n)` for any integer: a minus sign before negative numbers. */
  function IntToDecimal(n: int): (s: string)
    ensures s != [] && (s[0] == '-' <==> n < 0)
    ensures n < 0 ==> |s| >= 2 && AllDigits(s[1..])
    ensures n >= 0 ==> AllDigits(s)
  {
    if n < 0 then "-" + NatToDecimal(-n) else NatToDecimal(n)
  }

  /** Reads back an optionally signed decimal numeral. */
  function ParseInt(s: string): Option<int> {
    if |s| >= 2 && s[0] == '-' && AllDigits(s[1..]) then Some(-(DecimalValue(s[1..]) as int))
    else if s != [] && AllDigits(s) then Some(DecimalValue(s))
    else None
  }

  /** Reading a numeral back gives the number it was printed from. */
  lemma {:induction false} DecimalRoundTrip(n: nat)
    ensures DecimalValue(NatToDecimal(n)) == n
  {
    if n >= 10 {
      var s := NatToDecimal(n);
      assert s[..|s| - 1] == NatToDecimal(n / 10);
      DecimalRoundTrip(n / 10);
    }
  }

  lemma IntRoundTrip(n: int)
    ensures ParseInt(IntToDecimal(n)) == Some(n)
  {
    if n < 0 {
      DecimalRoundTrip(-n);
      NegativeParse(NatToDecimal(-n));
    } else {
      DecimalRoundTrip(n);
      NaturalParse(NatToDecimal(n));
    }
  }

  /** A minus sign followed by digits reads back as the negated value. */
  lemma NegativeParse(d: string)
    requires d != [] && AllDigits(d)
    ensures ParseInt("-" + d) == Some(-(DecimalValue(d) as int))
  {
    assert ("-" + d)[1..] == d;
  }

  /** Digits alone read back as their value. */
  lemma NaturalParse(d: string)
    requires d != [] && AllDigits(d)
    ensures ParseInt(d) == Some(DecimalValue(d))
  {
  }

  function Pow10(k: nat): (p: nat)
    ensures p >= 1
  {
    if k == 0 then 1 else 10 * Pow10(k - 1)
  }

  /** A numeral has at most `k` digits exactly when the number is below 10^k. */
  lemma {:induction false} DecimalLength(n: nat, k: nat)
    requires k >= 1
    ensures |NatToDecimal(n)| <= k <==> n < Pow10(k)
    decreases n
  {
    if n >= 10 {
      if k == 1 {
        assert Pow10(1) == 10;
      } else {
        DecimalLength(n / 10, k - 1);
      }
    } else if k > 1 {
      assert Pow10(k) == 10 * Pow10(k - 1);
    }
  }

  // ------------------------------------------------------------ lexical order

  /** JavaScript's `<` on strings: lexicographic, a proper prefix first. */
  predicate LexLess(a: string, b: string) {
    if a == [] then b != []
    else if b == [] then false
    else a[0] < b[0] || (a[0] == b[0] && LexLess(a[1..], b[1..]))
  }

  /** Comparing two concatenations whose first parts have equal length
      compares the first parts, then the second. */
  lemma {:induction false} LexLessConcat(a1: string, b1: string, a2: string, b2: string)
    requires |a1| == |a2|
    ensures LexLess(a1 + b1, a2 + b2) <==> LexLess(a1, a2) || (a1 == a2 && LexLess(b1, b2))
    decreases |a1|
  {
    if a1 != [] {
      assert (a1 + b1)[0] == a1[0] && (a1 + b1)[1..] == a1[1..] + b1;
      assert (a2 + b2)[0] == a2[0] && (a2 + b2)[1..] == a2[1..] + b2;
      LexLessConcat(a1[1..], b1, a2[1..], b2);
      assert a1 == a2 <==> a1[0] == a2[0] && a1[1..] == a2[1..] by {
        if a1[0] == a2[0] && a1[1..] == a2[1..] {
          assert a1 == [a1[0]] + a1[1..];
          assert a2 == [a2[0]] + a2[1..];
        }
      }
    } else {
      assert a1 + b1 == b1 && a2 + b2 == b2;
    }
  }

  /** Numerals of the same width compare as strings the way the numbers do. */
  lemma {:induction false} DecimalOrder(a: nat, b: nat)
    requires |NatToDecimal(a)| == |NatToDecimal(b)|
    ensures LexLess(NatToDecimal(a), NatToDecimal(b)) <==> a < b
    ensures NatToDecimal(a) == NatToDecimal(b) <==> a == b
    decreases a
  {
    DecimalRoundTrip(a);
    DecimalRoundTrip(b);
    if a < 10 || b < 10 {
      assert a < 10 && b < 10;
      assert LexLess(NatToDecimal(a), NatToDecimal(b)) <==> Digit(a) < Digit(b);
    } else {
      DecimalOrder(a / 10, b / 10);
      LexLessConcat(NatToDecimal(a / 10), [Digit(a % 10)], NatToDecimal(b / 10), [Digit(b % 10)]);
      assert LexLess([Digit(a % 10)], [Digit(b % 10)]) <==> a % 10 < b % 10;
    }
  }

  // --------------------------------------------------------------- timestamp

  /** `s.slice(-k)`: the last `k` characters, or all of a shorter `s`;
      `-0` is `0`, so `s.slice(-0)` is the whole of `s`. */
  function TakeLast(s: string, k: nat): (r: string)
    ensures |r| == if k == 0 || |s| < k then |s| else k
    ensures r == s[|s| - |r|..]
  {
    if k == 0 || |s| < k then s else s[|s| - k..]
  }

  /** `pad(n)`: `("0" + n).slice(-2)`. */
  function Pad(n: nat): (r: string)
    ensures |r| == 2 && AllDigits(r)
  {
    var s := "0" + NatToDecimal(n);
    AllDigitsConcat("0", NatToDecimal(n));
    var r := TakeLast(s, 2);
    assert forall i :: 0 <= i < |r| ==> r[i] == s[|s| - 2 + i];
    r
  }

  /** `pad(n)` is always the two digits of `n % 100`: a number below 100
      keeps its value and gains a leading zero below 10, a larger one loses
      its leading digits. */
  lemma PadDigitsOf(n: nat)
    ensures Pad(n) == [Digit(n / 10 % 10), Digit(n % 10)]
  {
    var s := "0" + NatToDecimal(n);
    if n >= 10 {
      assert s[|s| - 2] == NatToDecimal(n / 10)[|NatToDecimal(n / 10)| - 1];
    }
  }

  /** `toLocalTimestamp(date)`: the year as written, then `Clock(d)`, the
      padded month + 1, day, hour, minute and second (see `ClockSpelled`). */
  function LocalTimestamp(d: DateFields): (ts: string)
    ensures |ts| == |IntToDecimal(d.year)| + 10
    ensures ts[..|ts| - 10] == IntToDecimal(d.year)
  {
    IntToDecimal(d.year) + Clock(d)
  }

  /** Reads back an id: the year is everything before the last ten digits,
      which hold month + 1, day, hour, minute and second. */
  function ParseTimestamp(ts: string): Option<DateFields> {
    if |ts| < 11 || !AllDigits(ts[|ts| - 10..]) then None
    else
      var c := ts[|ts| - 10..];
      match ParseInt(ts[..|ts| - 10])
      case None => None
      case Some(year) =>
        var month := DecimalValue(c[0..2]);
        if month == 0 then None
        else Some(DateFields(year, month - 1, DecimalValue(c[2..4]), DecimalValue(c[4..6]),
                             DecimalValue(c[6..8]), DecimalValue(c[8..10])))
  }

  lemma TwoDigitValue(hi: nat, lo: nat)
    requires hi < 10 && lo < 10
    ensures DecimalValue([Digit(hi), Digit(lo)]) == 10 * hi + lo
  {
    var r := [Digit(hi), Digit(lo)];
    var h := [Digit(hi)];
    assert h[..0] == [];
    assert DecimalValue(h) == DigitValue(Digit(hi)) == hi;
    assert r[..1] == h;
    assert DigitValue(r[1]) == lo;
  }

  lemma PadValue(n: nat)
    requires n < 100
    ensures DecimalValue(Pad(n)) == n
  {
    var hi, lo := n / 10, n % 10;
    assert n == 10 * hi + lo && hi < 10;
    assert hi % 10 == hi;
    PadDigitsOf(n);
    assert Pad(n) == [Digit(hi), Digit(lo)];
    TwoDigitValue(hi, lo);
  }

  lemma AllDigitsConcat(a: string, b: string)
    requires AllDigits(a) && AllDigits(b)
    ensures AllDigits(a + b)
  {
  }

  lemma ClockParts(d: DateFields)
    ensures |Clock(d)| == 10 && AllDigits(Clock(d))
    ensures Clock(d)[0..2] == Pad(d.month + 1) && Clock(d)[2..4] == Pad(d.day)
    ensures Clock(d)[4..6] == Pad(d.hour) && Clock(d)[6..8] == Pad(d.minute)
    ensures Clock(d)[8..10] == Pad(d.second)
  {
    ClockSpelled(d);
    FiveFields(Pad(d.month + 1), Pad(d.day), Pad(d.hour), Pad(d.minute), Pad(d.second));
  }

  /** Five two-digit fields joined: ten digits, each field in its place. */
  lemma FiveFields(p1: string, p2: string, p3: string, p4: string, p5: string)
    requires |p1| == 2 && |p2| == 2 && |p3| == 2 && |p4| == 2 && |p5| == 2
    requires AllDigits(p1) && AllDigits(p2) && AllDigits(p3) && AllDigits(p4) && AllDigits(p5)
    ensures var c := p1 + (p2 + (p3 + (p4 + p5)));
      |c| == 10 && AllDigits(c) && c[0..2] == p1 && c[2..4] == p2 && c[4..6] == p3
      && c[6..8] == p4 && c[8..10] == p5
  {
    var x4 := p4 + p5;
    AllDigitsConcat(p4, p5);
    var x3 := p3 + x4;
    AllDigitsConcat(p3, x4);
    var x2 := p2 + x3;
    AllDigitsConcat(p2, x3);
    var c := p1 + x2;
    AllDigitsConcat(p1, x2);
    assert c[0..2] == p1;
    assert c[2..4] == x2[0..2] == p2;
    assert c[4..6] == x3[0..2] == p3;
    assert c[6..8] == x4[0..2] == p4;
    assert c[8..10] == x4[2..4] == p5;
  }

  /** Every valid reading can be recovered from its id, whatever the year:
      distinct readings get distinct ids. */
  lemma TimestampRoundTrip(d: DateFields)
    requires Valid(d)
    ensures ParseTimestamp(LocalTimestamp(d)) == Some(d)
  {
    var ts := LocalTimestamp(d);
    ClockParts(d);
    assert ts[|ts| - 10..] == Clock(d);
    assert ts[..|ts| - 10] == IntToDecimal(d.year);
    IntRoundTrip(d.year);
    PadValue(d.month + 1);
    PadValue(d.day);
    PadValue(d.hour);
    PadValue(d.minute);
    PadValue(d.second);
  }

  /** Equal ids come from equal readings. */
  lemma TimestampInjective(a: DateFields, b: DateFields)
    requires Valid(a) && Valid(b)
    ensures LocalTimestamp(a) == LocalTimestamp(b) <==> a == b
  {
    TimestampRoundTrip(a);
    TimestampRoundTrip(b);
  }

  /** The id is fourteen characters exactly when the year's numeral has
      four characters: a four-digit year, or a minus sign and three digits. */
  lemma TimestampLength(d: DateFields)
    ensures |LocalTimestamp(d)| == 14 <==> 1000 <= d.year <= 9999 || -999 <= d.year <= -100
  {
    assert Pow10(2) == 100 && Pow10(3) == 1000 && Pow10(4) == 10000;
    if d.year >= 0 {
      DecimalLength(d.year, 3);
      DecimalLength(d.year, 4);
    } else {
      assert |IntToDecimal(d.year)| == |NatToDecimal(-d.year)| + 1;
      DecimalLength(-d.year, 2);
      DecimalLength(-d.year, 3);
    }
  }

  /** Two-digit numerals compare as strings the way their values do. */
  lemma TwoDigitOrder(a1: nat, a0: nat, b1: nat, b0: nat)
    requires a1 < 10 && a0 < 10 && b1 < 10 && b0 < 10
    ensures LexLess([Digit(a1), Digit(a0)], [Digit(b1), Digit(b0)]) <==> 10 * a1 + a0 < 10 * b1 + b0
  {
    var sa, sb := [Digit(a1), Digit(a0)], [Digit(b1), Digit(b0)];
    assert sa[1..] == [Digit(a0)] && sb[1..] == [Digit(b0)];
    assert LexLess(sa[1..], sb[1..]) <==> a0 < b0;
  }

  lemma PadOrder(a: nat, b: nat)
    requires a < 100 && b < 100
    ensures LexLess(Pad(a), Pad(b)) <==> a < b
    ensures Pad(a) == Pad(b) <==> a == b
  {
    var a1, a0, b1, b0 := a / 10, a % 10, b / 10, b % 10;
    assert a1 % 10 == a1 && b1 % 10 == b1;
    PadDigitsOf(a);
    PadDigitsOf(b);
    TwoDigitOrder(a1, a0, b1, b0);
    PadValue(a);
    PadValue(b);
  }

  /** One step of comparing two ids field by field: a leading field of equal
      width that orders and identifies like the numbers `x` and `y` it shows. */
  lemma FieldStep(f1: string, r1: string, f2: string, r2: string, x: int, y: int)
    requires |f1| == |f2|
    requires LexLess(f1, f2) <==> x < y
    requires f1 == f2 <==> x == y
    ensures LexLess(f1 + r1, f2 + r2) <==> x < y || (x == y && LexLess(r1, r2))
    ensures f1 + r1 == f2 + r2 <==> x == y && r1 == r2
  {
    LexLessConcat(f1, r1, f2, r2);
    if f1 + r1 == f2 + r2 {
      assert f1 == (f1 + r1)[..|f1|] && f2 == (f2 + r2)[..|f2|];
      assert r1 == (f1 + r1)[|f1|..] && r2 == (f2 + r2)[|f2|..];
    }
  }

  /** The ten digits after the year: the padded fields, month + 1 first. */
  function Clock(d: DateFields): string {
    PadAll(ClockFields(d))
  }

  function ClockFields(d: DateFields): seq<nat> {
    [d.month + 1, d.day, d.hour, d.minute, d.second]
  }

  /** Each number padded, in order. */
  function PadAll(ns: seq<nat>): (s: string)
    ensures |s| == 2 * |ns|
  {
    if ns == [] then [] else Pad(ns[0]) + PadAll(ns[1..])
  }

  lemma PadAllStep(ns: seq<nat>)
    requires ns != []
    ensures PadAll(ns) == Pad(ns[0]) + PadAll(ns[1..])
  {
  }

  /** The clock is the five padded fields as `toLocalTimestamp` joins them. */
  lemma ClockSpelled(d: DateFields)
    ensures Clock(d) == Pad(d.month + 1) + (Pad(d.day) + (Pad(d.hour) + (Pad(d.minute) + Pad(d.second))))
  {
    PadFive(d.month + 1, d.day, d.hour, d.minute, d.second);
  }

  lemma PadFive(a: nat, b: nat, c: nat, d: nat, e: nat)
    ensures PadAll([a, b, c, d, e]) == Pad(a) + (Pad(b) + (Pad(c) + (Pad(d) + Pad(e))))
  {
    PadAllCons(a, [b, c, d, e]);
    assert [a, b, c, d, e] == [a] + [b, c, d, e];
    PadFour(b, c, d, e);
  }

  lemma PadFour(b: nat, c: nat, d: nat, e: nat)
    ensures PadAll([b, c, d, e]) == Pad(b) + (Pad(c) + (Pad(d) + Pad(e)))
  {
    PadAllCons(b, [c, d, e]);
    assert [b, c, d, e] == [b] + [c, d, e];
    PadThree(c, d, e);
  }

  lemma PadThree(c: nat, d: nat, e: nat)
    ensures PadAll([c, d, e]) == Pad(c) + (Pad(d) + Pad(e))
  {
    PadAllCons(c, [d, e]);
    assert [c, d, e] == [c] + [d, e];
    PadAllCons(d, [e]);
    assert [d, e] == [d] + [e];
    PadAllCons(e, []);
    assert [e] == [e] + [];
  }

  /** Padding a list that starts with `n`. */
  lemma PadAllCons(n: nat, ns: seq<nat>)
    ensures PadAll([n] + ns) == Pad(n) + PadAll(ns)
  {
    assert ([n] + ns)[1..] == ns;
  }

  /** Lexicographic order on equally long lists of numbers. */
  predicate FieldsLess(xs: seq<int>, ys: seq<int>) {
    xs != [] && ys != [] && (xs[0] < ys[0] || (xs[0] == ys[0] && FieldsLess(xs[1..], ys[1..])))
  }

  /** Numbers below 100, padded and joined, compare as strings the way the
      lists compare, and are equal exactly when the lists are. */
  lemma {:induction false} PadAllOrder(xs: seq<nat>, ys: seq<nat>)
    requires |xs| == |ys|
    requires forall i :: 0 <= i < |xs| ==> xs[i] < 100 && ys[i] < 100
    ensures LexLess(PadAll(xs), PadAll(ys)) <==> FieldsLess(xs, ys)
    ensures PadAll(xs) == PadAll(ys) <==> xs == ys
    decreases |xs|
  {
    if xs != [] {
      var x, y, xt, yt := xs[0], ys[0], xs[1..], ys[1..];
      assert xs == [x] + xt && ys == [y] + yt;
      PadAllOrder(xt, yt);
      PadAllStep(xs);
      PadAllStep(ys);
      PadOrder(x, y);
      FieldStep(Pad(x), PadAll(xt), Pad(y), PadAll(yt), x, y);
    }
  }

  lemma FieldsLessStep(xs: seq<int>, ys: seq<int>, k: nat)
    requires k < |xs| && k < |ys|
    ensures FieldsLess(xs[k..], ys[k..]) <==> xs[k] < ys[k] || (xs[k] == ys[k] && FieldsLess(xs[k + 1..], ys[k + 1..]))
  {
    assert xs[k..][1..] == xs[k + 1..] && ys[k..][1..] == ys[k + 1..];
  }

  /** The field lists compare as the readings' clocks do. */
  lemma ClockFieldsOrder(a: DateFields, b: DateFields)
    ensures FieldsLess(ClockFields(a), ClockFields(b)) <==> ClockBefore(a, b)
    ensures ClockFields(a) == ClockFields(b) <==> SameClock(a, b)
  {
    var xs, ys := ClockFields(a), ClockFields(b);
    assert !FieldsLess(xs[5..], ys[5..]);
    FieldsLessStep(xs, ys, 4);
    FieldsLessStep(xs, ys, 3);
    FieldsLessStep(xs, ys, 2);
    FieldsLessStep(xs, ys, 1);
    FieldsLessStep(xs, ys, 0);
    assert xs[0..] == xs && ys[0..] == ys;
    if xs == ys {
      assert xs[0] == ys[0] && xs[1] == ys[1] && xs[2] == ys[2] && xs[3] == ys[3] && xs[4] == ys[4];
    }
  }

  /** Order of readings within one year. */
  predicate ClockBefore(a: DateFields, b: DateFields) {
    || a.month < b.month
    || (a.month == b.month && a.day < b.day)
    || (a.month == b.month && a.day == b.day && a.hour < b.hour)
    || (a.month == b.month && a.day == b.day && a.hour == b.hour && a.minute < b.minute)
    || (a.month == b.month && a.day == b.day && a.hour == b.hour && a.minute == b.minute
        && a.second < b.second)
  }

  predicate SameClock(a: DateFields, b: DateFields) {
    a.month == b.month && a.day == b.day && a.hour == b.hour && a.minute == b.minute
    && a.second == b.second
  }

  lemma ClockOrder(a: DateFields, b: DateFields)
    requires Valid(a) && Valid(b)
    ensures LexLess(Clock(a), Clock(b)) <==> ClockBefore(a, b)
    ensures Clock(a) == Clock(b) <==> SameClock(a, b)
  {
    PadAllOrder(ClockFields(a), ClockFields(b));
    ClockFieldsOrder(a, b);
  }

  /** Ids of readings whose years are non-negative and of one width sort as
      strings in chronological order. */
  lemma TimestampOrder(a: DateFields, b: DateFields)
    requires Valid(a) && Valid(b)
    requires a.year >= 0 && b.year >= 0
    requires |NatToDecimal(a.year)| == |NatToDecimal(b.year)|
    ensures LexLess(LocalTimestamp(a), LocalTimestamp(b)) <==> Before(a, b)
  {
    ClockOrder(a, b);
    DecimalOrder(a.year, b.year);
    FieldStep(NatToDecimal(a.year), Clock(a), NatToDecimal(b.year), Clock(b), a.year, b.year);
  }

  /** The four-digit years are one width. */
  lemma TimestampOrderFourDigitYears(a: DateFields, b: DateFields)
    requires Valid(a) && Valid(b)
    requires 1000 <= a.year <= 9999 && 1000 <= b.year <= 9999
    ensures LexLess(LocalTimestamp(a), LocalTimestamp(b)) <==> Before(a, b)
  {
    TimestampLength(a);
    TimestampLength(b);
    TimestampOrder(a, b);
  }

  /** The year is not padded, so across a change of width the order breaks:
      the last second of year 999 sorts after the first second of year 1000. */
  lemma UnpaddedYearBreaksOrder()
    ensures var a := DateFields(999, 11, 31, 23, 59, 59);
            var b := DateFields(1000, 0, 1, 0, 0, 0);
            Before(a, b) && LexLess(LocalTimestamp(b), LocalTimestamp(a))
  {
    var a := DateFields(999, 11, 31, 23, 59, 59);
    var b := DateFields(1000, 0, 1, 0, 0, 0);
    assert NatToDecimal(1000)[0] == '1';
    assert NatToDecimal(999)[0] == '9';
    assert LocalTimestamp(b)[0] == '1' && LocalTimestamp(a)[0] == '9';
  }
}

=== FILE: wikilink.dfy ===
/**
 The two fixed link rewrites that turn the first line of a selection into a
 title, each applied the way JavaScript's `replace` with the `g` flag applies
 a regular expression: scan left to right, replace the leftmost match by its
 first capture group, resume after the match, copy unmatched characters.

   Bare:     /\[\[([^\]|]*)\]\]/     `[[X]]`   becomes `X`
   Labelled: /\[\[[^\]]*\|([^\]]*)\]\]/   `[[P|Y]]` becomes `Y`
 */
module Wikilink {

  import opened Wrappers

  datatype Pattern = Bare | Labelled

  /** A match at the start of the scanned text: the capture group and the
      number of characters the whole match consumes. */
  datatype Match = Match(group: string, len: nat)

  predicate Excludes(s: string, c: char) {
    forall i :: 0 <= i < |s| ==> s[i] != c
  }

  /** `s` has an adjacent `[[` somewhere. */
  predicate HasOpen(s: string) {
    exists i :: 0 <= i < |s| - 1 && s[i] == '[' && s[i + 1] == '['
  }

  /** The regular expression Bare matches a prefix of `s` with group `x`. */
  ghost predicate BareMatch(s: string, x: string) {
    && |x| + 4 <= |s|
    && s[..|x| + 4] == "[[" + x + "]]"
    && Excludes(x, ']') && Excludes(x, '|')
  }

  /** Labelled matches a prefix of `s` with `p` for the uncaptured `[^\]]*`
      and group `y`. */
  ghost predicate LabelledMatch(s: string, p: string, y: string) {
    && |p| + |y| + 5 <= |s|
    && s[..|p| + |y| + 5] == "[[" + p + "|" + y + "]]"
    && Excludes(p, ']') && Excludes(y, ']')
  }

  /** Length of the longest prefix of `s` holding no character of `stop`:
      how far a greedy `[^...]*` runs. */
  function RunWithout(s: string, stop: set<char>): (n: nat)
    ensures n <= |s|
    ensures forall i :: 0 <= i < n ==> s[i] !in stop
    ensures n < |s| ==> s[n] in stop
  {
    if s == [] || s[0] in stop then 0 else 1 + RunWithout(s[1..], stop)
  }

  /** The last offset of `c` in `s`: where a greedy prefix that must be
      followed by `c` stops after backtracking. */
  function LastIndex(s: string, c: char): (k: nat)
    requires c in s
    ensures k < |s| && s[k] == c
    ensures forall j :: k < j < |s| ==> s[j] != c
  {
    if s[|s| - 1] == c then |s| - 1 else LastIndex(s[..|s| - 1], c)
  }

  /** Where the run ends once the length is known: a run of `l` characters
      outside `stop` followed by one inside it. */
  lemma {:induction false} RunLength(s: string, stop: set<char>, l: nat)
    requires l < |s| && s[l] in stop
    requires forall i :: 0 <= i < l ==> s[i] !in stop
    ensures RunWithout(s, stop) == l
    decreases l
  {
    if l > 0 {
      assert s[0] !in stop;
      forall i | 0 <= i < l - 1 ensures s[1..][i] !in stop {
        assert s[1..][i] == s[i + 1];
      }
      RunLength(s[1..], stop, l - 1);
    }
  }

  /** Bare tried at offset 0: `[[`, a run of neither `]` nor `|`, `]]`. */
  function BareAt(s: string): (m: Option<Match>)
    requires |s| >= 2 && s[0] == '[' && s[1] == '['
    ensures m.Some? ==> m.value.len == |m.value.group| + 4 <= |s|
    ensures m.Some? ==> m.value.group == s[2..m.value.len - 2]
    ensures m.Some? ==> s[m.value.len - 2] == ']' && s[m.value.len - 1] == ']'
  {
    var n := RunWithout(s[2..], {']', '|'});
    if 2 + n + 1 < |s| && s[2 + n] == ']' && s[3 + n] == ']'
    then Some(Match(s[2..2 + n], n + 4)) else None
  }

  /** Labelled tried at offset 0: `[[`, a run without `]` holding a `|`,
      `]]`; the group is what follows the last `|` of the run. */
  function LabelledAt(s: string): (m: Option<Match>)
    requires |s| >= 2 && s[0] == '[' && s[1] == '['
    ensures m.Some? ==> 5 + |m.value.group| <= m.value.len <= |s|
    ensures m.Some? ==> m.value.group == s[m.value.len - 2 - |m.value.group|..m.value.len - 2]
    ensures m.Some? ==> s[m.value.len - 2] == ']' && s[m.value.len - 1] == ']'
  {
    var n := RunWithout(s[2..], {']'});
    var inner := s[2..2 + n];
    if 2 + n + 1 < |s| && s[2 + n] == ']' && s[3 + n] == ']' && '|' in inner
    then
      var k := LastIndex(inner, '|');
      assert inner[k + 1..] == s[2 + k + 1..2 + n];
      Some(Match(inner[k + 1..], n + 4))
    else None
  }

  /** The match the regular expression finds when tried at offset 0 of `s`,
      backtracking included, or None. */
  function MatchAt(p: Pattern, s: string): (m: Option<Match>)
    ensures m.Some? ==> 4 + |m.value.group| <= m.value.len <= |s|
    ensures m.Some? ==> s[..2] == "[[" && s[m.value.len - 2..m.value.len] == "]]"
    ensures m.Some? ==> m.value.group == s[m.value.len - 2 - |m.value.group|..m.value.len - 2]
  {
    if |s| < 2 || s[0] != '[' || s[1] != '[' then None
    else
      match p
      case Bare => BareAt(s)
      case Labelled => LabelledAt(s)
  }

  /** `s.replace(pattern, "$1")` with the global flag. */
  function ReplaceAll(p: Pattern, s: string): (r: string)
    ensures |r| <= |s|
    decreases |s|
  {
    if s == [] then []
    else
      match MatchAt(p, s)
      case Some(m) => m.group + ReplaceAll(p, s[m.len..])
      case None => [s[0]] + ReplaceAll(p, s[1..])
  }

  /** A global replace brings in no character that was not already there. */
  lemma {:induction false} ReplaceAllDrawsFromInput(p: Pattern, s: string)
    ensures forall c :: c in ReplaceAll(p, s) ==> c in s
    decreases |s|
  {
    if s != [] {
      match MatchAt(p, s)
      case Some(m) =>
        ReplaceAllDrawsFromInput(p, s[m.len..]);
        assert forall c :: c in m.group ==> c in s;
        assert forall c :: c in s[m.len..] ==> c in s;
      case None =>
        ReplaceAllDrawsFromInput(p, s[1..]);
        assert forall c :: c in s[1..] ==> c in s;
    }
  }

  /** A prefix of `s` spelled out piece by piece equals the concatenation of
      the pieces. */
  lemma Bracketed(s: string, x: string)
    requires |x| + 4 <= |s|
    requires s[..2] == "[[" && s[2..2 + |x|] == x
    requires s[2 + |x|] == ']' && s[3 + |x|] == ']'
    ensures s[..|x| + 4] == "[[" + x + "]]"
  {
    var t := "[[" + x + "]]";
    forall i | 0 <= i < |x| + 4 ensures s[i] == t[i] {
      if 2 <= i < 2 + |x| {
        assert s[i] == s[2..2 + |x|][i - 2];
      } else if i < 2 {
        assert s[i] == s[..2][i];
      }
    }
  }

  /** Every reading of a prefix of `s` as `[[X]]` is the match BareAt finds. */
  lemma BareMatchFound(s: string, x: string)
    requires BareMatch(s, x)
    ensures MatchAt(Bare, s) == Some(Match(x, |x| + 4))
  {
    var t := "[[" + x + "]]";
    assert s[0] == t[0] && s[1] == t[1];
    assert s[2 + |x|] == t[2 + |x|] && s[3 + |x|] == t[3 + |x|];
    forall i | 0 <= i < |x| ensures s[2..][i] !in {']', '|'} && s[2 + i] == x[i] {
      assert s[2 + i] == t[2 + i];
    }
    RunLength(s[2..], {']', '|'}, |x|);
    assert s[2..2 + |x|] == x;
  }

  /** MatchAt(Bare, _) finds exactly the match the regular expression Bare
      has at offset 0, and that match is unique. */
  lemma BareMatchAtIsRegexMatch(s: string)
    ensures MatchAt(Bare, s).Some? ==>
              var m := MatchAt(Bare, s).value;
              BareMatch(s, m.group) && m.len == |m.group| + 4
    ensures forall x :: BareMatch(s, x) ==> MatchAt(Bare, s) == Some(Match(x, |x| + 4))
  {
    if MatchAt(Bare, s).Some? {
      var m := MatchAt(Bare, s).value;
      var n := RunWithout(s[2..], {']', '|'});
      assert m.group == s[2..2 + n];
      forall i | 0 <= i < n ensures m.group[i] != ']' && m.group[i] != '|' {
        assert m.group[i] == s[2..][i];
      }
      Bracketed(s, m.group);
    }
    forall x | BareMatch(s, x)
      ensures MatchAt(Bare, s) == Some(Match(x, |x| + 4))
    {
      BareMatchFound(s, x);
    }
  }

  /** The five pieces of a `[[P|Y]]` prefix, located. */
  lemma LabelledPieces(s: string, p: string, y: string)
    requires LabelledMatch(s, p, y)
    ensures s[0] == '[' && s[1] == '[' && s[2 + |p|] == '|'
    ensures s[3 + |p| + |y|] == ']' && s[4 + |p| + |y|] == ']'
    ensures forall i :: 0 <= i < |p| ==> s[2 + i] == p[i]
    ensures forall i :: 0 <= i < |y| ==> s[3 + |p| + i] == y[i]
  {
    var t := "[[" + p + "|" + y + "]]";
    assert s[0] == t[0] && s[1] == t[1] && s[2 + |p|] == t[2 + |p|];
    assert s[3 + |p| + |y|] == t[3 + |p| + |y|] && s[4 + |p| + |y|] == t[4 + |p| + |y|];
    forall i | 0 <= i < |p| ensures s[2 + i] == p[i] {
      assert s[2 + i] == t[2 + i];
    }
    forall i | 0 <= i < |y| ensures s[3 + |p| + i] == y[i] {
      assert s[3 + |p| + i] == t[3 + |p| + i];
    }
  }

  /** The converse: characters in place make a `[[P|Y]]` prefix. */
  lemma LabelledFromPieces(s: string, p: string, y: string)
    requires |p| + |y| + 5 <= |s|
    requires s[0] == '[' && s[1] == '[' && s[2 + |p|] == '|'
    requires s[3 + |p| + |y|] == ']' && s[4 + |p| + |y|] == ']'
    requires forall i :: 0 <= i < |p| ==> s[2 + i] == p[i]
    requires forall i :: 0 <= i < |y| ==> s[3 + |p| + i] == y[i]
    ensures s[..|p| + |y| + 5] == "[[" + p + "|" + y + "]]"
  {
    var t := "[[" + p + "|" + y + "]]";
    forall i | 0 <= i < |t| ensures s[i] == t[i] {
      if 2 <= i < 2 + |p| {
        assert s[2 + (i - 2)] == p[i - 2];
      } else if 3 + |p| <= i < 3 + |p| + |y| {
        assert s[3 + |p| + (i - 3 - |p|)] == y[i - 3 - |p|];
      }
    }
  }

  /** Whatever MatchAt(Labelled, _) returns is a match of the regular
      expression Labelled at offset 0. */
  lemma LabelledMatchAtIsRegexMatch(s: string)
    requires MatchAt(Labelled, s).Some?
    ensures var m := MatchAt(Labelled, s).value;
            LabelledMatch(s, s[2..m.len - 3 - |m.group|], m.group)
  {
    var m := MatchAt(Labelled, s).value;
    var n := RunWithout(s[2..], {']'});
    var inner := s[2..2 + n];
    var k := LastIndex(inner, '|');
    assert m == Match(inner[k + 1..], n + 4);
    assert m.len - 3 - |m.group| == k + 2;
    var p := s[2..k + 2];
    var y := m.group;
    assert s[2 + k] == inner[k] == '|';
    forall i | 0 <= i < |p| ensures s[2 + i] == p[i] && p[i] != ']' {
      assert p[i] == s[2..][i];
    }
    forall i | 0 <= i < |y| ensures s[3 + k + i] == y[i] && y[i] != ']' {
      assert y[i] == inner[k + 1 + i] == s[2..][k + 1 + i];
    }
    LabelledFromPieces(s, p, y);
  }

  /** Every reading of a prefix of `s` as `[[P|Y]]` is found by MatchAt, and
      the match it reports is the one the greedy `[^\]]*` prefers: P as long
      as possible, so the group is no longer than any other Y. */
  lemma LabelledMatchAtIsGreedy(s: string, p: string, y: string)
    requires LabelledMatch(s, p, y)
    ensures MatchAt(Labelled, s).Some?
    ensures MatchAt(Labelled, s).value.len == |p| + |y| + 5
    ensures |MatchAt(Labelled, s).value.group| <= |y|
  {
    LabelledPieces(s, p, y);
    var l := |p| + 1 + |y|;
    forall i | 0 <= i < l ensures s[2..][i] !in {']'} {
      if i < |p| {
        assert s[2 + i] == p[i];
      } else if i > |p| {
        assert s[3 + |p| + (i - |p| - 1)] == y[i - |p| - 1];
      }
    }
    RunLength(s[2..], {']'}, l);
    var inner := s[2..2 + l];
    assert inner[|p|] == '|';
    var k := LastIndex(inner, '|');
    assert k >= |p|;
  }

  /** The title a single line becomes: the Bare rewrite, then the Labelled
      rewrite on its output. */
  function UnwrapLinks(line: string): (r: string)
    ensures |r| <= |line|
    ensures forall c :: c in r ==> c in line
  {
    ReplaceAllDrawsFromInput(Bare, line);
    ReplaceAllDrawsFromInput(Labelled, ReplaceAll(Bare, line));
    ReplaceAll(Labelled, ReplaceAll(Bare, line))
  }

  /** A scan that never finds a match copies its input. */
  lemma {:induction false} NoMatchUnchanged(p: Pattern, s: string)
    requires forall i :: 0 <= i < |s| ==> MatchAt(p, s[i..]).None?
    ensures ReplaceAll(p, s) == s
    decreases |s|
  {
    if s != [] {
      assert MatchAt(p, s[0..]).None?;
      assert s[0..] == s;
      forall i | 0 <= i < |s[1..]| ensures MatchAt(p, s[1..][i..]).None? {
        assert s[1..][i..] == s[1 + i..];
      }
      NoMatchUnchanged(p, s[1..]);
    }
  }

  /** Text without `[[` comes out of either rewrite unchanged. */
  lemma NoOpenUnchanged(p: Pattern, s: string)
    requires !HasOpen(s)
    ensures ReplaceAll(p, s) == s
  {
    forall i | 0 <= i < |s| ensures MatchAt(p, s[i..]).None? {
    }
    NoMatchUnchanged(p, s);
  }

  /** Text without `]` comes out of either rewrite unchanged. */
  lemma NoCloseUnchanged(p: Pattern, s: string)
    requires Excludes(s, ']')
    ensures ReplaceAll(p, s) == s
  {
    forall i | 0 <= i < |s| ensures MatchAt(p, s[i..]).None? {
    }
    NoMatchUnchanged(p, s);
  }

  /** A line without `[[` is its own title. */
  lemma UnwrapNoLinks(line: string)
    requires !HasOpen(line)
    ensures UnwrapLinks(line) == line
  {
    NoOpenUnchanged(Bare, line);
    NoOpenUnchanged(Labelled, line);
  }

  /** `[[X]]` becomes `X`. */
  lemma UnwrapBareLink(x: string)
    requires Excludes(x, ']') && Excludes(x, '|')
    ensures UnwrapLinks("[[" + x + "]]") == x
  {
    var s := "[[" + x + "]]";
    assert s[..|x| + 4] == s;
    BareMatchFound(s, x);
    assert s[|x| + 4..] == [];
    assert ReplaceAll(Bare, s) == x + ReplaceAll(Bare, []) == x;
    NoCloseUnchanged(Labelled, x);
    assert UnwrapLinks(s) == ReplaceAll(Labelled, x);
  }

  /** Bare cannot match at offset `i` when a `|` follows the `[[` before any `]`. */
  lemma NoBareMatchBeforeBar(s: string, i: nat, j: nat)
    requires i + 2 <= j < |s| && s[j] == '|'
    requires forall k :: i + 2 <= k < j ==> s[k] != ']'
    ensures MatchAt(Bare, s[i..]).None?
  {
    var t := s[i..];
    if |t| >= 2 && t[0] == '[' && t[1] == '[' {
      var n := RunWithout(t[2..], {']', '|'});
      assert t[2..][j - i - 2] == '|';
      assert n <= j - i - 2;
      assert t[2 + n] == s[i + 2 + n];
    }
  }

  /** Where no match starts, the scan copies one character and moves on. */
  lemma CopyFirst(p: Pattern, s: string)
    requires s != [] && MatchAt(p, s).None?
    ensures ReplaceAll(p, s) == [s[0]] + ReplaceAll(p, s[1..])
  {
  }

  /** No match starts anywhere but at a `[`. */
  lemma NoMatchOffBracket(p: Pattern, s: string)
    requires s != [] && s[0] != '['
    ensures MatchAt(p, s).None?
  {
  }

  /** Scanning past `k` characters at none of which a match starts copies
      them and resumes after them. */
  lemma NoMatchPrefix(p: Pattern, s: string, k: nat)
    requires k <= |s|
    requires forall i :: 0 <= i < k ==> MatchAt(p, s[i..]).None?
    ensures ReplaceAll(p, s) == s[..k] + ReplaceAll(p, s[k..])
  {
    NoMatchInFromAll(p, s, k);
    CopyUnmatched(p, s, k);
  }

  /** No match starts at any of the first `k` characters of `s`. */
  predicate NoMatchIn(p: Pattern, s: string, k: nat)
    requires k <= |s|
    decreases k
  {
    k == 0 || (MatchAt(p, s).None? && NoMatchIn(p, s[1..], k - 1))
  }

  lemma {:induction false} NoMatchInFromAll(p: Pattern, s: string, k: nat)
    requires k <= |s|
    requires forall i :: 0 <= i < k ==> MatchAt(p, s[i..]).None?
    ensures NoMatchIn(p, s, k)
    decreases k
  {
    if k > 0 {
      assert MatchAt(p, s[0..]).None?;
      assert s[0..] == s;
      NoMatchShift(p, s, k);
      NoMatchInFromAll(p, s[1..], k - 1);
    }
  }

  lemma NoMatchShift(p: Pattern, s: string, k: nat)
    requires 0 < k <= |s|
    requires forall i :: 0 <= i < k ==> MatchAt(p, s[i..]).None?
    ensures forall i :: 0 <= i < k - 1 ==> MatchAt(p, s[1..][i..]).None?
  {
    forall i | 0 <= i < k - 1 ensures MatchAt(p, s[1..][i..]).None? {
      assert s[1..][i..] == s[1 + i..];
    }
  }

  /** Scanning past `k` characters at none of which a match starts copies
      them and resumes after them. */
  lemma {:induction false} CopyUnmatched(p: Pattern, s: string, k: nat)
    requires k <= |s| && NoMatchIn(p, s, k)
    ensures ReplaceAll(p, s) == s[..k] + ReplaceAll(p, s[k..])
    decreases k
  {
    if k == 0 {
      assert s[..0] + ReplaceAll(p, s[0..]) == ReplaceAll(p, s);
    } else {
      var t := s[1..];
      assert ReplaceAll(p, s) == [s[0]] + ReplaceAll(p, t) by {
        CopyFirst(p, s);
      }
      assert ReplaceAll(p, t) == t[..k - 1] + ReplaceAll(p, s[k..]) by {
        CopyUnmatched(p, t, k - 1);
        assert t[k - 1..] == s[k..];
      }
      assert s[..k] == [s[0]] + t[..k - 1];
      StepConcat(s[0], t[..k - 1], ReplaceAll(p, s[k..]), s[..k]);
    }
  }

  /** One character, then a piece, then the rest: regrouped. */
  lemma StepConcat(c: char, a: string, b: string, ca: string)
    requires ca == [c] + a
    ensures [c] + (a + b) == ca + b
  {
  }

  /** In `[[P|Y]]` with no bracket or `|` in Y, Bare matches nowhere: each
      `[[` is followed by the `|` before any `]`. So the bare rewrite copies
      such a link, whatever follows it. */
  lemma LabelledLinkHasNoBareMatch(p: string, y: string, rest: string)
    requires Excludes(p, ']')
    requires Excludes(y, ']') && Excludes(y, '[') && Excludes(y, '|')
    ensures ReplaceAll(Bare, "[[" + p + "|" + y + "]]" + rest)
              == "[[" + p + "|" + y + "]]" + ReplaceAll(Bare, rest)
  {
    var link := "[[" + p + "|" + y + "]]";
    var s := link + rest;
    var bar := 2 + |p|;
    assert s[bar] == '|';
    forall i | 0 <= i < |link| ensures MatchAt(Bare, s[i..]).None? {
      if i + 2 <= bar {
        forall k | i + 2 <= k < bar ensures s[k] != ']' {
          assert s[k] == p[k - 2];
        }
        NoBareMatchBeforeBar(s, i, bar);
      } else if i + 1 == bar {
        assert s[i..][1] == s[bar];
      } else {
        assert s[i..][0] == s[i];
        if bar < i < |link| - 2 {
          assert s[i] == y[i - bar - 1];
        }
      }
    }
    NoMatchPrefix(Bare, s, |link|);
    assert s[..|link|] == link && s[|link|..] == rest;
  }

  /** When Y holds no `|`, the greedy match of `[[P|Y]]` is that reading. */
  lemma LabelledMatchOfBarFree(s: string, p: string, y: string)
    requires LabelledMatch(s, p, y) && Excludes(y, '|')
    ensures MatchAt(Labelled, s) == Some(Match(y, |p| + |y| + 5))
  {
    LabelledMatchAtIsGreedy(s, p, y);
    LabelledMatchAtIsRegexMatch(s);
    var m := MatchAt(Labelled, s).value;
    var q := s[2..m.len - 3 - |m.group|];
    LabelledPieces(s, p, y);
    LabelledPieces(s, q, m.group);
    assert |q| == |p|;
    forall i | 0 <= i < |y| ensures m.group[i] == y[i] {
      assert s[3 + |q| + i] == m.group[i];
    }
    assert m.group == y;
  }

  /** Labelled matches all of `[[P|Y]]` with group Y when Y holds no `|`. */
  lemma LabelledLinkMatch(p: string, y: string)
    requires Excludes(p, ']') && Excludes(y, ']') && Excludes(y, '|')
    ensures MatchAt(Labelled, "[[" + p + "|" + y + "]]") == Some(Match(y, |p| + |y| + 5))
  {
    var s := "[[" + p + "|" + y + "]]";
    assert s[..|p| + |y| + 5] == s;
    LabelledMatchOfBarFree(s, p, y);
  }

  /** `[[P|Y]]` becomes `Y` when Y holds no `|` and no brackets; P may hold
      further `|`, so `[[a|b|c]]` becomes `c`. */
  lemma UnwrapLabelledLink(p: string, y: string)
    requires Excludes(p, ']')
    requires Excludes(y, ']') && Excludes(y, '[') && Excludes(y, '|')
    ensures UnwrapLinks("[[" + p + "|" + y + "]]") == y
  {
    var s := "[[" + p + "|" + y + "]]";
    LabelledLinkHasNoBareMatch(p, y, []);
    assert s + [] == s;
    LabelledLinkMatch(p, y);
    assert s[|s|..] == [];
    assert ReplaceAll(Labelled, s) == y + ReplaceAll(Labelled, []) == y;
  }

  // ------------------------------------------------------- lines of links

  /** Text that starts no match is copied, and the scan resumes after it. */
  lemma CopyPlain(p: Pattern, t: string, rest: string)
    requires Excludes(t, '[')
    ensures ReplaceAll(p, t + rest) == t + ReplaceAll(p, rest)
  {
    var s := t + rest;
    PlainStartsNoMatch(p, t, rest);
    CopyUnmatched(p, s, |t|);
    assert s[..|t|] == t && s[|t|..] == rest;
  }

  /** No match starts inside text without a `[`. */
  lemma {:induction false} PlainStartsNoMatch(p: Pattern, t: string, rest: string)
    requires Excludes(t, '[')
    ensures NoMatchIn(p, t + rest, |t|)
    decreases |t|
  {
    if t != [] {
      var s := t + rest;
      assert s[0] == t[0];
      NoMatchOffBracket(p, s);
      assert s[1..] == t[1..] + rest;
      PlainStartsNoMatch(p, t[1..], rest);
    }
  }

  /** The bare rewrite replaces a leading `[[X]]` by X and carries on. */
  lemma BareStep(x: string, rest: string)
    requires Excludes(x, ']') && Excludes(x, '|')
    ensures ReplaceAll(Bare, "[[" + x + "]]" + rest) == x + ReplaceAll(Bare, rest)
  {
    var s := "[[" + x + "]]" + rest;
    assert s[..|x| + 4] == "[[" + x + "]]";
    BareMatchFound(s, x);
    assert s[|x| + 4..] == rest;
  }

  /** The labelled rewrite replaces a leading `[[P|Y]]` by Y and carries on. */
  lemma LabelledStep(p: string, y: string, rest: string)
    requires Excludes(p, ']') && Excludes(y, ']') && Excludes(y, '|')
    ensures ReplaceAll(Labelled, "[[" + p + "|" + y + "]]" + rest) == y + ReplaceAll(Labelled, rest)
  {
    var s := "[[" + p + "|" + y + "]]" + rest;
    assert s[..|p| + |y| + 5] == "[[" + p + "|" + y + "]]";
    LabelledMatchOfBarFree(s, p, y);
    assert s[|p| + |y| + 5..] == rest;
  }

  /** A piece of a line: plain text, `[[name]]`, or `[[target|label]]`. */
  datatype Segment = Plain(text: string) | BareLink(name: string) | PipedLink(target: string, display: string)

  /** Plain text opens no link; names and labels hold no bracket and no
      `|`; a target holds no `]`. */
  predicate WellFormed(g: Segment) {
    match g
    case Plain(t) => Excludes(t, '[')
    case BareLink(x) => Excludes(x, '[') && Excludes(x, ']') && Excludes(x, '|')
    case PipedLink(p, y) => Excludes(p, ']') && Excludes(y, '[') && Excludes(y, ']') && Excludes(y, '|')
  }

  predicate AllWellFormed(gs: seq<Segment>) {
    forall i :: 0 <= i < |gs| ==> WellFormed(gs[i])
  }

  /** A segment as it is written in the line. */
  function Written(g: Segment): string {
    match g
    case Plain(t) => t
    case BareLink(x) => "[[" + x + "]]"
    case PipedLink(p, y) => "[[" + p + "|" + y + "]]"
  }

  /** A segment as a reader sees it: a link shows its name or label. */
  function Shown(g: Segment): string {
    match g
    case Plain(t) => t
    case BareLink(x) => x
    case PipedLink(_, y) => y
  }

  /** A segment once only the bare rewrite has run. */
  function AfterBare(g: Segment): string {
    match g
    case BareLink(x) => x
    case _ => Written(g)
  }

  function Concat(gs: seq<Segment>, f: Segment -> string): string {
    if gs == [] then [] else f(gs[0]) + Concat(gs[1..], f)
  }

  /** The bare rewrite unwraps every `[[X]]` of a line and leaves the rest. */
  lemma {:induction false} BarePass(gs: seq<Segment>)
    requires AllWellFormed(gs)
    ensures ReplaceAll(Bare, Concat(gs, Written)) == Concat(gs, AfterBare)
  {
    if gs != [] {
      var rest := Concat(gs[1..], Written);
      assert WellFormed(gs[0]);
      BarePass(gs[1..]);
      match gs[0]
      case Plain(t) => CopyPlain(Bare, t, rest);
      case BareLink(x) => BareStep(x, rest);
      case PipedLink(p, y) => LabelledLinkHasNoBareMatch(p, y, rest);
    }
  }

  /** The labelled rewrite then unwraps every `[[P|Y]]` and copies the rest. */
  lemma {:induction false} LabelledPass(gs: seq<Segment>)
    requires AllWellFormed(gs)
    ensures ReplaceAll(Labelled, Concat(gs, AfterBare)) == Concat(gs, Shown)
  {
    if gs != [] {
      var rest := Concat(gs[1..], AfterBare);
      assert WellFormed(gs[0]);
      LabelledPass(gs[1..]);
      match gs[0]
      case Plain(t) => CopyPlain(Labelled, t, rest);
      case BareLink(x) => CopyPlain(Labelled, x, rest);
      case PipedLink(p, y) => LabelledStep(p, y, rest);
    }
  }

  /** A line of text and well-formed links, however many, becomes the text
      with each link replaced by what it shows. */
  lemma UnwrapLinkLine(gs: seq<Segment>)
    requires AllWellFormed(gs)
    ensures UnwrapLinks(Concat(gs, Written)) == Concat(gs, Shown)
  {
    BarePass(gs);
    LabelledPass(gs);
  }

  lemma ExcludesConcat(a: string, b: string, c: char)
    requires Excludes(a, c) && Excludes(b, c)
    ensures Excludes(a + b, c)
  {
    forall i | 0 <= i < |a + b| ensures (a + b)[i] != c {
      if i >= |a| {
        assert (a + b)[i] == b[i - |a|];
      }
    }
  }

  /** Such a line unwraps to text with no `[`, hence no `[[`; and with no
      `]`, hence no `]]`, when its plain text holds none. */
  lemma {:induction false} UnwrappedLineHasNoBrackets(gs: seq<Segment>)
    requires AllWellFormed(gs)
    ensures Excludes(Concat(gs, Shown), '[')
    ensures (forall i :: 0 <= i < |gs| ==> Excludes(Shown(gs[i]), ']')) ==> Excludes(Concat(gs, Shown), ']')
  {
    if gs != [] {
      assert WellFormed(gs[0]);
      UnwrappedLineHasNoBrackets(gs[1..]);
      ExcludesConcat(Shown(gs[0]), Concat(gs[1..], Shown), '[');
      if forall i :: 0 <= i < |gs| ==> Excludes(Shown(gs[i]), ']') {
        assert forall i :: 0 <= i < |gs[1..]| ==> Excludes(Shown(gs[1..][i]), ']') by {
          forall i | 0 <= i < |gs[1..]| ensures Excludes(Shown(gs[1..][i]), ']') {
            assert gs[1..][i] == gs[i + 1];
          }
        }
        ExcludesConcat(Shown(gs[0]), Concat(gs[1..], Shown), ']');
      }
    }
  }

  /** `see [[A]] and [[B|C]]` in segments. */
  const TwoLinks: seq<Segment> := [Plain("see "), BareLink("A"), Plain(" and "), PipedLink("B", "C")]

  lemma TwoLinksWritten()
    ensures Concat(TwoLinks, Written) == "see [[A]] and [[B|C]]"
  {
    var w0, w1, w2, w3 := "see ", "[[A]]", " and ", "[[B|C]]";
    assert w0 + (w1 + (w2 + (w3 + []))) == "see [[A]] and [[B|C]]";
    var g0, g1, g2, g3 := TwoLinks[0], TwoLinks[1], TwoLinks[2], TwoLinks[3];
    assert Written(g1) == w1 && Written(g3) == w3;
    ConcatCons(g3, [], Written);
    ConcatCons(g2, [g3], Written);
    ConcatCons(g1, [g2, g3], Written);
    ConcatCons(g0, [g1, g2, g3], Written);
    assert TwoLinks == [g0] + [g1, g2, g3];
    assert [g1, g2, g3] == [g1] + [g2, g3] && [g2, g3] == [g2] + [g3] && [g3] == [g3] + [];
  }

  /** Concatenating a segment list that starts with `g`. */
  lemma ConcatCons(g: Segment, gs: seq<Segment>, f: Segment -> string)
    ensures Concat([g] + gs, f) == f(g) + Concat(gs, f)
  {
    assert ([g] + gs)[1..] == gs;
  }

  lemma TwoLinksShown()
    ensures Concat(TwoLinks, Shown) == "see A and C"
  {
    var gs := TwoLinks;
    assert Concat(gs[3..], Shown) == "C";
    assert Concat(gs[2..], Shown) == " and C";
    assert Concat(gs[1..], Shown) == "A and C";
  }

  /** Two links and the text around them: `see [[A]] and [[B|C]]` becomes
      `see A and C`. */
  lemma UnwrapExampleTwoLinks()
    ensures UnwrapLinks("see [[A]] and [[B|C]]") == "see A and C"
  {
    assert AllWellFormed(TwoLinks) by {
      var gs := TwoLinks;
      assert WellFormed(gs[0]) && WellFormed(gs[1]) && WellFormed(gs[2]) && WellFormed(gs[3]);
    }
    TwoLinksWritten();
    TwoLinksShown();
    UnwrapLinkLine(TwoLinks);
  }
}

=== FILE: wrappers.dfy ===
/**
 An optional value, standing for a JavaScript value that may be `undefined`.
 */
module Wrappers {

  datatype Option<+T> = None | Some(value: T)
}
